=== FILE: README.md ===
# Growth allocation and feature-impact metrics, modelled in Dafny

This project models the two pieces of arithmetic in the product-analytics
repository that are more than plotting. Both are stated over exact `real`
numbers and immutable sequences of records.

- **The Growth Allocation Engine dashboard** (`growth_engine/dashboard.py`),
  module `Allocation` in `allocation.dfy`:
  - per-channel spend bands, which are the total budget times fixed minimum and maximum percentages;
  - the "feasible baseline": an equal split, clamped into each band, then the leftover handed to channels below their cap in proportion to their spare room;
  - expected incremental value (`spend × incremental_ltv / avg_cost`) and its totals;
  - the constraint set given to the linear-programming solver, and the solver's objective;
  - per-channel `value_lift` and the headline `delta_value`;
  - the three-way policy explanation.
- **The feature-impact metrics** (`extract_data_for_copilot.py`):
  - module `Engagement` in `engagement.dfy`:
    - the launch split of the event log;
    - "engaged sessions per active user" (ESAU), per day and averaged over days;
    - the pre/post and exposed/unexposed percentage changes;
    - the holiday comparison with its guards.
  - module `DiffInDiff` in `diff_in_diff.dfy`:
    - the `(date, treated, post)` grouped table and its four cell means;
    - the difference-in-differences (DiD) estimate;
    - the guarded `did_pct`.

Two support modules hold the general tools:
- `Wrappers` (`wrappers.dfy`): `Option`.
- `Seqs` (`seqs.dfy`): sums, means, filtering, mapping and de-duplication of sequences, with their lemmas.

Modelling choices:
- An event is `Event(userId, day, time, exposed)`. Each event row is one session.
- A pandas `groupby` becomes `GroupBy`: one group per key present, with its row count, distinct users and ratio.
- Python failures become `Option`:
  - a channel missing from the percentage tables (a `KeyError`) gives `None` from `BoundsFor`;
  - an empty channel list (a division by zero) gives `None` from `Baseline`;
  - the mean of an empty query (NaN) gives `None` from `CellMean`.
- The NaN carries through to the DiD estimate. `did_pct`'s `pre_treated > 0` test is false for NaN, so the model returns 0 there.
- Where the script would produce NaN or divide by zero, the Dafny function requires input that avoids it:
  - `compute_esau` of an empty frame is NaN in the script (the mean of nothing), which it prints and exports; `ComputeEsau` requires a non-empty log;
  - the percentage changes need a non-zero base.

The dashboard's footer says that the baseline and the optimized policy are
evaluated "under identical budget and channel-capacity constraints". The model
proves it under sufficient conditions:
- `BaselineWithinConstraints` proves it whenever the bands are well formed and the amount left after clamping lies between zero and the total spare room of the channels below their cap.
- `BaselineMeetsConstraints` derives it from three simpler conditions:
  - every band has min ≤ max;
  - no minimum exceeds the equal share;
  - the caps add up to at least the budget.
- For the shipped tables and all five channels, `ShippedBaselineFeasible` proves it for every positive budget. `ShippedBaselineValues` gives the baseline exactly: (22/75, 37/150, 1/5, 4/25, 1/10) of the budget.
- These conditions are sufficient but not necessary. Outside them the claim can fail, for example:
  - `BaselineCanUndercutMinimum`: a minimum above the equal share lets redistribution push a channel below its minimum;
  - `BaselineCanExceedCap`: a channel summary listing only paid search, social ads and affiliate puts half the budget on paid search, above its 40% cap.
  - `BaselineCanUnderspend`: when every channel is clamped to its cap, nothing is redistributed and the rest of the budget goes unspent; a single channel capped at 10% spends 10% of the budget.
- `BaselineSpend` states what the baseline spends for every input: the whole budget when some clamped channel is below its cap, and exactly the clamped shares when none is.

The code is not wrong here. The claim depends on the channel summary the
dashboard is given, so these are stated as properties, not as defects of the code.

## Model

| member | source | states |
|---|---|---|
| Allocation.Lookup | growth_engine/dashboard.py:37-51 | a channel name resolves only to the channel that has that key in the percentage tables |
| Allocation.LookupName | growth_engine/dashboard.py:37-51 | each of the five channels is found under its own key, so both tables cover every shipped channel |
| Allocation.ShippedTablesConsistent | growth_engine/dashboard.py:37-51 | every minimum percentage is between 0% and 4% and at most its maximum, which is at most 100%; the minima total 8% and the maxima 116%, so Σmin ≤ 1 ≤ Σmax |
| Allocation.BoundsFor | growth_engine/dashboard.py:53-54 | bands exist exactly when every channel of the summary has table entries (otherwise the lookup fails); each band is the budget times that channel's minimum and maximum percentages |
| Allocation.BoundsWellFormed | growth_engine/dashboard.py:53-54 | for a non-negative budget every derived band has min ≤ max |
| Allocation.ShippedBands | growth_engine/dashboard.py:37-54 | the five shipped channels get the bands [4%,40%], [2%,30%], [1%,20%], [1%,16%], [0%,10%] of the budget |
| Allocation.WithinConstraints | growth_engine/dashboard.py:121-128 | a definition without a contract of its own: every channel inside its `[MIN_SPEND, MAX_SPEND]` band and the total at most the budget; `ConstraintSetNonEmpty` says when it can be met |
| Allocation.ConstraintSetNonEmpty | growth_engine/dashboard.py:121-128 | some allocation lies in every band and within the budget if and only if every band is well formed and the minima add up to at most the budget |
| Allocation.ShippedConstraintsFeasible | growth_engine/dashboard.py:121-128 | with the shipped tables and channels the solver's constraint set is non-empty for every non-negative budget |
| Allocation.ClampedShares | growth_engine/dashboard.py:68-82 | the clamped baseline column: the equal share clamped into each channel's band by `Clamp`, one entry per channel |
| Allocation.Clamp | growth_engine/dashboard.py:76-82 | `min(max(s, lo), hi)` is at most the cap, at least the minimum when min ≤ max, leaves a share already inside the band unchanged, and is the point of the band nearest to the share |
| Allocation.Capacity | growth_engine/dashboard.py:87-94 | spare room is never negative and is positive exactly for a channel strictly below its cap |
| Allocation.Capacities | growth_engine/dashboard.py:91-94 | the `capacity` column: `Capacity` applied to each channel, one entry per channel |
| Allocation.TotalCapacityZero | growth_engine/dashboard.py:87-98 | total spare room is non-negative, and zero exactly when no channel is below its cap |
| Allocation.Redistribute | growth_engine/dashboard.py:96-98 | redistribution keeps one spend per channel and leaves every channel at or above its cap with the spend it had after clamping |
| Seqs.Spread | growth_engine/dashboard.py:96-98 | proportional spreading: with zero total weight nothing changes, and a value of zero weight keeps its base; `SpreadConserves` gives its total |
| Seqs.SpreadConserves | growth_engine/dashboard.py:96-98 | with non-zero total weight, spreading an amount in proportion to the weights raises the total by exactly that amount |
| Seqs.SumProportional | growth_engine/dashboard.py:96-98 | raising every value by k times its weight raises the total by k times the total weight |
| Allocation.RedistributeAt | growth_engine/dashboard.py:91-98 | with some spare room, each channel's new spend is its old spend plus its share `remaining × cap / Σcap` of the leftover, the dashboard's `remaining_budget * capacity / capacity.sum()` (the helper lemmas `SpreadAt`, `RateShare` and `ShareScales` only unfold definitions on the way) |
| Allocation.RedistributeLinear | growth_engine/dashboard.py:91-98 | with some spare room, every channel gains one common multiple k of its spare room, where k times the total spare room is the leftover |
| Allocation.RedistributeConserves | growth_engine/dashboard.py:85-98 | when some channel has spare room, the total after redistribution is the total before plus the leftover; when none has, nothing changes |
| Allocation.RedistributeEligible | growth_engine/dashboard.py:96-98 | a channel below its cap gains iff the leftover is non-negative, and stays within its cap iff the leftover is at most the total spare room |
| Allocation.SpareRoomPositive | growth_engine/dashboard.py:87-94 | one channel below its cap makes the total spare room positive |
| Allocation.GainBounds | growth_engine/dashboard.py:96-98 | a channel with room that receives its share gains iff the leftover is non-negative, and stays within its cap iff the leftover is at most the total room |
| Allocation.ShareBounds | growth_engine/dashboard.py:96-98 | a channel's share `remaining × cap / Σcap` is non-negative iff the leftover is, and at most its spare room iff the leftover is at most the total spare room |
| Allocation.HeadroomIdentity | growth_engine/dashboard.py:91-94 | when no spend exceeds its cap, the caps add up to the spends plus the spare room |
| Allocation.RedistributeWithinBands | growth_engine/dashboard.py:96-98 | with a leftover between 0 and the total spare room, no channel drops below its clamped spend or rises above the larger of that spend and its cap |
| Allocation.ClampedSharesFit | growth_engine/dashboard.py:68-82 | when no minimum exceeds the equal share, the clamped shares add up to at most the budget |
| Allocation.Baseline | growth_engine/dashboard.py:68-98 | a baseline exists exactly when there is at least one channel, with one spend per channel |
| Allocation.BaselineSpend | growth_engine/dashboard.py:68-98 | for every budget and channel list, the baseline spends the whole budget when some clamped channel is below its cap, and exactly the clamped shares when none is |
| Allocation.BaselineCanUnderspend | growth_engine/dashboard.py:85-98 | a single channel capped at 10% leaves 90% of the budget unspent: with no channel below its cap nothing is redistributed |
| Allocation.BaselineWithinConstraints | growth_engine/dashboard.py:68-98 | if bands are well formed and the amount left after clamping is between 0 and the total spare room, the baseline lies in every band and spends exactly the budget; this is the footer's claim |
| Allocation.BaselineMeetsConstraints | growth_engine/dashboard.py:68-98 | the same conclusion from simpler sufficient conditions: well-formed bands, no minimum above the equal share, and caps that add up to at least the budget |
| Allocation.ShippedBaselineFeasible | growth_engine/dashboard.py:286-289 | with the five shipped channels the baseline meets the solver's constraints and spends the whole budget, for every positive budget |
| Allocation.ShippedClamped | growth_engine/dashboard.py:68-94 | with the five shipped channels the clamp keeps 1/5 for the first three and cuts referral and organic to 16% and 10%, leaving 14% of the budget and spare room 20% and 10% on paid search and social ads |
| Allocation.ShareOfBudget | growth_engine/dashboard.py:96-98 | a share computed from budget fractions is the budget times the share of the fractions |
| Allocation.ShippedShares | growth_engine/dashboard.py:68-82 | with the five shipped bands, the equal fifth stays for paid search, social ads and affiliate and is cut to 16% and 10% for referral and organic |
| Allocation.ShippedRoom | growth_engine/dashboard.py:87-94 | after the clamp only paid search and social ads have room, 20% and 10% of the budget, 30% in total |
| Allocation.GainOfBudget | growth_engine/dashboard.py:96-98 | a channel whose room and the total room are budget fractions y and z receives the budget fraction x·y/z of a leftover x |
| Allocation.ShippedRedistribution | growth_engine/dashboard.py:96-98 | the 14% leftover goes to paid search and social ads in a 2:1 ratio, giving 22/75 and 37/150 of the budget; the others keep their spend |
| Allocation.ShippedBaselineValues | growth_engine/dashboard.py:68-98 | with the five shipped channels the baseline is (22/75, 37/150, 1/5, 4/25, 1/10) of the budget |
| Allocation.BaselineCanUndercutMinimum | growth_engine/dashboard.py:76-98 | bands [0.9,1] and [0,1] with budget 1 give the baseline (5/6, 1/6), below the first channel's minimum |
| Allocation.BaselineCanExceedCap | growth_engine/dashboard.py:53-98 | a summary with only paid search, social ads and affiliate and budget 1 gives the baseline (0.5, 0.3, 0.2), above paid search's 40% cap |
| Allocation.ExpectedValue | growth_engine/dashboard.py:107-111 | the value times `avg_cost` is `spend × incremental_ltv`, so it is exactly `spend × incremental_ltv / avg_cost` for a non-zero cost |
| Allocation.ExpectedValueMonotone | growth_engine/dashboard.py:107-111 | with non-negative LTV and positive cost, expected value never falls as spend rises, and it is additive in spend |
| Allocation.ChannelValues | growth_engine/dashboard.py:107-111 | the `expected_value` column: `ExpectedValue` of each channel's spend, one entry per channel |
| Allocation.TotalValue | growth_engine/dashboard.py:152-158 | a definition without a contract of its own: the sum of the per-channel expected values; `TotalValueMonotone` and `ObjectiveIsTotalValue` give its meaning |
| Allocation.TotalValueMonotone | growth_engine/dashboard.py:152-158 | raising no channel's spend never lowers the total expected value |
| Allocation.ValuePerDollar | growth_engine/dashboard.py:130-136 | the solver's coefficient times `avg_cost` is `incremental_ltv` |
| Allocation.Objective | growth_engine/dashboard.py:130-136 | a definition without a contract of its own: the solver's objective, coefficient times spend summed over the channels; `ObjectiveIsTotalValue` gives its meaning |
| Allocation.ObjectiveIsTotalValue | growth_engine/dashboard.py:130-136 | the solver's objective (value per dollar times spend, summed) equals the total expected value of the same allocation |
| Allocation.ValueLifts | growth_engine/dashboard.py:251-254 | one lift per channel; `LiftsSumToDelta` relates the column to `delta_value` |
| Allocation.DeltaValue | growth_engine/dashboard.py:163 | a definition without a contract of its own: optimized total minus baseline total; `LiftsSumToDelta` gives its meaning |
| Allocation.LiftsSumToDelta | growth_engine/dashboard.py:251-254 | the per-channel `value_lift` column adds up to `delta_value` |
| Allocation.ExplainPolicy | growth_engine/dashboard.py:272-278 | "increased" iff optimized > 1.2 × baseline; "reduced" iff optimized < 0.8 × baseline and not increased; "stable" iff 0.8 × baseline ≤ optimized ≤ 1.2 × baseline |
| Allocation.PolicyConditionsExclusive | growth_engine/dashboard.py:272-278 | for a non-negative baseline the increase and reduction conditions never both hold, and an unchanged spend is stable |
| Allocation.PolicyConditionsOverlapBelowZero | growth_engine/dashboard.py:272-278 | for every negative baseline both conditions hold for an unchanged spend, and the first branch reports it "increased" |
| Allocation.Explanation | growth_engine/dashboard.py:272-278 | a definition without a contract of its own: the sentence shown for each policy; `ExplanationsDistinct` and `ExplainedSpendChange` give its meaning |
| Allocation.ExplanationsDistinct | growth_engine/dashboard.py:274-278 | the three sentences differ, so the sentence shown identifies the policy |
| Allocation.ExplainedSpendChange | growth_engine/dashboard.py:272-278 | the "increased" sentence is shown iff optimized > 1.2 × baseline, the "reduced" one iff optimized < 0.8 × baseline and not increased, and the "stable" one iff 0.8 × baseline ≤ optimized ≤ 1.2 × baseline |
| Engagement.PreLaunch | extract_data_for_copilot.py:41 | a definition without a contract of its own: the events with `event_time < launch`; `LaunchSplitPartition` gives its meaning |
| Engagement.PostLaunch | extract_data_for_copilot.py:42 | a definition without a contract of its own: the events with `event_time >= launch`; `LaunchSplitPartition` gives its meaning |
| Engagement.LaunchSplitPartition | extract_data_for_copilot.py:41-42 | every event is pre-launch (time < launch) or post-launch (time ≥ launch) and not both; the two counts add up to the event count, and together they hold exactly the log's events |
| Engagement.PostFlag | extract_data_for_copilot.py:116 | a definition without a contract of its own: 1 at or after launch, else 0; `PostFlagMatchesSplit` gives its meaning |
| Engagement.PostFlagMatchesSplit | extract_data_for_copilot.py:116 | the `post` flag is 1 exactly for post-launch events and 0 exactly for pre-launch ones |
| Engagement.ActiveUsers | extract_data_for_copilot.py:48 | `nunique` of user ids is the number of distinct ids, at most the row count and at least 1 for non-empty input |
| Engagement.SessionsPerUser | extract_data_for_copilot.py:47-49 | rows over distinct users is between 1 and the row count |
| Engagement.GroupOf | extract_data_for_copilot.py:119-128 | a present key's group has its rows as sessions, their distinct users as active users, and ESAU = sessions / active users, which is between 1 and the sessions |
| Engagement.GroupBy | extract_data_for_copilot.py:119-127 | exactly one group for each key present and none for any other key, each being that key's group |
| Engagement.ComputeEsau | extract_data_for_copilot.py:45-49 | the mean daily ESAU of a non-empty log is between 1 and the number of rows |
| Engagement.DailyEsau | extract_data_for_copilot.py:72-76 | a definition without a contract of its own: the log grouped by day; `DailyEsauSpec` gives its meaning |
| Engagement.DailyEsauSpec | extract_data_for_copilot.py:72-76 | every day with events has exactly one row and no other day has one; each row's value is that day's rows over that day's distinct users, at least 1 |
| Engagement.GroupOfInvariant | extract_data_for_copilot.py:119-128 | a group depends only on the key and user of its rows |
| Engagement.GroupByInvariant | extract_data_for_copilot.py:119-128 | relabelling events while keeping the key and user leaves the grouped table unchanged |
| Engagement.ComputeEsauInvariant | extract_data_for_copilot.py:45-49 | relabelling events in any way that keeps each event's day and user leaves ESAU unchanged (rows count with multiplicity) |
| Engagement.PctChange | extract_data_for_copilot.py:53 | `(after - before) / before × 100` recovers `after` as `before × (1 + r/100)`; for a positive base it is negative iff after < before and zero iff they are equal |
| Engagement.EsauDropPct | extract_data_for_copilot.py:51-53 | the engagement change is negative exactly when post-launch ESAU is below pre-launch ESAU |
| Engagement.ExposureGapPct | extract_data_for_copilot.py:61-67 | the exposed-versus-unexposed difference is positive exactly when exposed ESAU is higher |
| Engagement.HolidayEvents | extract_data_for_copilot.py:103 | a definition without a contract of its own: the events on a day the calendar marks as a holiday; `CalendarSplit` gives its meaning |
| Engagement.NonHolidayEvents | extract_data_for_copilot.py:104 | a definition without a contract of its own: the events on a day the calendar marks as not a holiday; `CalendarSplit` gives its meaning |
| Engagement.CalendarSplit | extract_data_for_copilot.py:100-104 | no event is both holiday and non-holiday; holiday, non-holiday and unlisted-day events add up to all events |
| Engagement.CalendarCovers | extract_data_for_copilot.py:100-104 | when the calendar lists every day of the log, holiday and non-holiday events add up to all events |
| Engagement.HolidayEsau | extract_data_for_copilot.py:106 | holiday ESAU is 0 exactly when there are no holiday events, and at least 1 otherwise |
| Engagement.EsauOrNaN | extract_data_for_copilot.py:45-49 | `compute_esau` as the script sees it: NaN (None) exactly for an empty frame, otherwise a figure between 1 and the row count |
| Engagement.NonHolidayEsau | extract_data_for_copilot.py:107 | non-holiday ESAU falls back to the pre-launch figure, NaN included, when there are no non-holiday events, and is present and at least 1 otherwise |
| Engagement.HolidayImpact | extract_data_for_copilot.py:109 | 0 when non-holiday ESAU is NaN or ≤ 0 (NaN fails `> 0`); otherwise it recovers the holiday figure as `nonHoliday × (1 - r/100)`, is positive iff the holiday figure is lower, zero iff equal, at most 100 for a non-negative holiday figure, and exactly 100 when it is 0 |
| Engagement.HolidayImpactOfLog | extract_data_for_copilot.py:106-109 | with non-holiday events present the non-holiday figure is present, the impact is 0 iff the two ESAU figures agree, and a log without holiday events shows 100 |
| Engagement.HolidayGuardOfLog | extract_data_for_copilot.py:51-109 | with the log's own pre-launch ESAU as the fallback, the `> 0` guard fails exactly when there are neither non-holiday nor pre-launch events; the fallback is then NaN and the impact is 0 |
| DiffInDiff.KeyOf | extract_data_for_copilot.py:116-121 | a definition without a contract of its own: an event's `(date, treated, post)` key; `CellMembers` gives its meaning |
| DiffInDiff.GroupedMetrics | extract_data_for_copilot.py:119-128 | a definition without a contract of its own: the log grouped by that key; `CellMeanIsCellEsau` gives its meaning |
| DiffInDiff.CellMean | extract_data_for_copilot.py:130-133 | a cell mean is missing (NaN) exactly when no row of the grouped table has that treated/post pair |
| DiffInDiff.CellMembers | extract_data_for_copilot.py:116-127 | the rows of a (day, treated, post) group are the rows of that day among the treated/post cell's events |
| DiffInDiff.CellKeys | extract_data_for_copilot.py:116-127 | the cell's keys in the grouped table are the days of the cell's events, each once |
| DiffInDiff.CellMeanIsCellEsau | extract_data_for_copilot.py:116-133 | each of the four cell means equals `compute_esau` applied to that cell's events, and is missing exactly when the cell is empty |
| DiffInDiff.Did | extract_data_for_copilot.py:135 | the estimate is 0 exactly when both groups changed by the same amount, and positive exactly when the treated group changed more |
| DiffInDiff.DidSwapRoles | extract_data_for_copilot.py:135 | exchanging treated and control negates the estimate, and a common shift of all four means leaves it unchanged |
| DiffInDiff.DidOfMeans | extract_data_for_copilot.py:130-135 | the estimate is present exactly when all four means are |
| DiffInDiff.DidEstimate | extract_data_for_copilot.py:130-135 | a definition without a contract of its own: the estimate from the four cell means of the grouped table; `DidEstimateSpec` and `FlipExposureNegatesDid` give its meaning |
| DiffInDiff.DidEstimateSpec | extract_data_for_copilot.py:116-135 | the estimate from the grouped table is present iff all four cells have events, and then equals the estimate over the four cells' own ESAU |
| DiffInDiff.FlipExposureNegatesDid | extract_data_for_copilot.py:130-135 | flipping every event's exposure negates the estimate, or leaves it missing |
| DiffInDiff.DidPct | extract_data_for_copilot.py:303 | 0 when `pre_treated` is missing or not positive; otherwise present iff the estimate is, with `r × pre_treated = did × 100` and r negative iff the estimate is |
| DiffInDiff.DidPctOfLog | extract_data_for_copilot.py:303 | when every cell has events, `pre_treated` is at least 1, the estimate is present, the guard never fires, and the percentage has the estimate's sign |

## Left out

- Streamlit widgets and layout, matplotlib/seaborn charts, CSV loading, date parsing, the JSON export and `round(...)` formatting: these are I/O and presentation. The total budget is a parameter.
- The GLOP linear-programming solve (growth_engine/dashboard.py:118-139): it is a foreign library. Only its constraint set (`WithinConstraints`) and its objective (`Objective`) are modelled, not the optimality of the solution. The optimized spends are inputs to `ValueLifts`, `DeltaValue` and `ExplainPolicy`.
- The lift percentage shown in the headline metric (growth_engine/dashboard.py:180) and the printed "DiD % Change" without a guard (extract_data_for_copilot.py:141): both are display-only ratios; the guarded `did_pct` is modelled.
- The sorting of the comparison table by `value_lift` (growth_engine/dashboard.py:264): it is presentation only.
- The Welch t-test (extract_data_for_copilot.py:69-83) and the cohort-quality shares (extract_data_for_copilot.py:85-96): they are foreign floating-point statistics and `value_counts` plumbing.
- The `engagement_multiplier` column filled in by the calendar merge (extract_data_for_copilot.py:101): nothing downstream reads it.
- The calendar is a map from day to holiday flag, so a calendar file that lists the same date twice (which would duplicate rows in the merge) is not represented.
- A channel summary with a repeated channel row is not represented; channels are given as a sequence of names.
- IEEE floating point: rounding, infinities and NaN arithmetic are replaced by exact `real` arithmetic.
  - NaN is modelled as `None` where the code produces it from an empty frame and then tests it: the DiD cells, `did_pct`, and the pre-launch ESAU that the holiday guard falls back to (`EsauOrNaN`).
  - A zero `avg_cost` is excluded by `Costed` rather than giving infinity.
  - `compute_esau` of an empty frame is NaN in the script; `ComputeEsau`, `EsauDropPct` and `ExposureGapPct` require the frames they average to be non-empty and the lines below record this.
- Engagement.ComputeEsau: requires a non-empty log; the script yields NaN for an empty one (extract_data_for_copilot.py:49) and prints and exports it.
- Engagement.EsauDropPct: requires both launch halves to be non-empty; the script yields NaN when either is empty.
- Engagement.ExposureGapPct: requires exposed and unexposed events to be present; the script yields NaN when either group is empty.
- Row order of a `groupby` result: pandas sorts the groups by key, while `GroupBy` keeps the order of the keys' last occurrence. Every quantity read from those tables is a mean or a sum, which does not depend on the order.
- Propensity-score matching, uplift and survival models are described in the case-study documents but implemented in none of the modelled files, so they are not modelled.
- DiffInDiff.DidPctOfLog: states only that the percentage is present and has the estimate's sign, not the product `did_pct × pre_treated = did × 100`, because that identity over the grouped table is too costly to prove; `DidPct` states it for any given estimate and base.

=== FILE: allocation.dfy ===
/** The budget arithmetic of the Growth Allocation Engine dashboard: per-channel
    spend bands derived from a total budget, the "feasible baseline" built by an
    equal split, clamping and capacity-proportional redistribution, expected
    incremental value, the constraint set handed to the linear-programming
    solver, per-channel value lift and the three-way policy explanation.

    Money is `real`; the solver itself is not modelled, only the set of
    allocations it is asked to choose from. */
module Allocation {
  import opened Wrappers
  import opened Seqs

  /** Allowed spend range of one channel: [lo, hi] in dollars. */
  datatype Band = Band(lo: real, hi: real)

  /** The per-channel figures read from the channel summary table. */
  datatype ChannelStats = ChannelStats(incrementalLtv: real, avgCost: real)

  // ---------------------------------------------------------------------------
  // Spend bands
  // ---------------------------------------------------------------------------

  /** The marketing channels the percentage tables know about. */
  datatype Channel = PaidSearch | SocialAds | Affiliate | Referral | Organic

  /** The channel's key in the tables and in the channel summary. */
  function Name(c: Channel): string
  {
    match c
    case PaidSearch => "paid_search"
    case SocialAds => "social_ads"
    case Affiliate => "affiliate"
    case Referral => "referral"
    case Organic => "organic"
  }

  /** Looks a channel name up in the tables; None when the name has no entry
      (the dictionary lookup raises). */
  function Lookup(name: string): (r: Option<Channel>)
    ensures r.Some? ==> Name(r.value) == name
  {
    if name == "paid_search" then Some(PaidSearch)
    else if name == "social_ads" then Some(SocialAds)
    else if name == "affiliate" then Some(Affiliate)
    else if name == "referral" then Some(Referral)
    else if name == "organic" then Some(Organic)
    else None
  }

  /** Every channel is found under its own name, so both tables cover
      exactly the five channels. */
  lemma LookupName(c: Channel)
    ensures Lookup(Name(c)) == Some(c)
  {
  }

  /** Maximum share of the total budget each channel may receive. */
  function MaxSpendPct(c: Channel): real
  {
    match c
    case PaidSearch => 0.40
    case SocialAds => 0.30
    case Affiliate => 0.20
    case Referral => 0.16
    case Organic => 0.10
  }

  /** Minimum share of the total budget each channel must receive. */
  function MinSpendPct(c: Channel): real
  {
    match c
    case PaidSearch => 0.04
    case SocialAds => 0.02
    case Affiliate => 0.01
    case Referral => 0.01
    case Organic => 0.00
  }

  /** The five channels in table order. */
  const AllChannels: seq<Channel> := [PaidSearch, SocialAds, Affiliate, Referral, Organic]

  /** A channel summary listing exactly the five table channels. */
  const ShippedNames: seq<string> := ["paid_search", "social_ads", "affiliate", "referral", "organic"]

  /** The band of one channel: the budget times its two table entries. */
  function BandOf(budget: real, c: Channel): Band
  {
    Band(budget * MinSpendPct(c), budget * MaxSpendPct(c))
  }

  predicate Known(name: string)
  {
    Lookup(name).Some?
  }

  /** The spend band of every named channel; None when some name has no
      table entry. */
  function BoundsFor(budget: real, names: seq<string>): (r: Option<seq<Band>>)
    ensures r.Some? <==> forall i :: 0 <= i < |names| ==> Known(names[i])
    ensures r.Some? ==> |r.value| == |names|
    ensures r.Some? ==> forall i :: 0 <= i < |names| ==> r.value[i] == BandOf(budget, Lookup(names[i]).value)
  {
    if |names| == 0 then Some([])
    else if !Known(names[0]) then None
    else
      var rest := BoundsFor(budget, names[1..]);
      if rest.None? then
        assert exists i :: 0 <= i < |names[1..]| && !Known(names[1..][i]);
        None
      else
        Some([BandOf(budget, Lookup(names[0]).value)] + rest.value)
  }

  predicate WellFormed(bands: seq<Band>)
  {
    forall i :: 0 <= i < |bands| ==> bands[i].lo <= bands[i].hi
  }

  function Los(bands: seq<Band>): (r: seq<real>)
    ensures |r| == |bands| && forall i :: 0 <= i < |bands| ==> r[i] == bands[i].lo
  {
    seq(|bands|, i requires 0 <= i < |bands| => bands[i].lo)
  }

  function His(bands: seq<Band>): (r: seq<real>)
    ensures |r| == |bands| && forall i :: 0 <= i < |bands| ==> r[i] == bands[i].hi
  {
    seq(|bands|, i requires 0 <= i < |bands| => bands[i].hi)
  }

  /** One percentage column of a table, in channel order. */
  function PctColumn(table: Channel -> real, channels: seq<Channel>): (r: seq<real>)
    ensures |r| == |channels| && forall i :: 0 <= i < |channels| ==> r[i] == table(channels[i])
  {
    seq(|channels|, i requires 0 <= i < |channels| => table(channels[i]))
  }

  /** Every minimum share is between 0% and 4% and at most the maximum
      share, every maximum is at most 100%, and over the five channels the
      minimum shares add up to 8% and the maximum shares to 116% of the
      budget, so the minimums fit in the budget and the caps cover it. */
  lemma ShippedTablesConsistent()
    ensures forall c: Channel :: 0.0 <= MinSpendPct(c) <= 0.04 && MinSpendPct(c) <= MaxSpendPct(c) <= 1.0
    ensures Sum(PctColumn(MinSpendPct, AllChannels)) == 0.08
    ensures Sum(PctColumn(MaxSpendPct, AllChannels)) == 1.16
  {
    assert PctColumn(MinSpendPct, AllChannels) == [0.04, 0.02, 0.01, 0.01, 0.00];
    assert PctColumn(MaxSpendPct, AllChannels) == [0.40, 0.30, 0.20, 0.16, 0.10];
    SumFive(0.04, 0.02, 0.01, 0.01, 0.00);
    SumFive(0.40, 0.30, 0.20, 0.16, 0.10);
  }

  /** For a non-negative budget a channel's band is well formed. */
  lemma BandOfWellFormed(budget: real, c: Channel)
    requires budget >= 0.0
    ensures BandOf(budget, c).lo <= BandOf(budget, c).hi
  {
    assert budget * (MaxSpendPct(c) - MinSpendPct(c)) >= 0.0;
  }

  /** For a non-negative budget every derived band is well formed. */
  lemma BoundsWellFormed(budget: real, names: seq<string>)
    requires budget >= 0.0
    requires BoundsFor(budget, names).Some?
    ensures WellFormed(BoundsFor(budget, names).value)
  {
    var bands := BoundsFor(budget, names).value;
    forall i | 0 <= i < |bands|
      ensures bands[i].lo <= bands[i].hi
    {
      BandOfWellFormed(budget, Lookup(names[i]).value);
    }
  }

  // ---------------------------------------------------------------------------
  // The optimizer's constraint set
  // ---------------------------------------------------------------------------

  /** An allocation the solver may choose: every channel inside its band and
      the total at most the budget. */
  predicate WithinConstraints(spend: seq<real>, bands: seq<Band>, budget: real)
  {
    && |spend| == |bands|
    && (forall i :: 0 <= i < |spend| ==> bands[i].lo <= spend[i] <= bands[i].hi)
    && Sum(spend) <= budget
  }

  /** The solver's problem has a feasible point exactly when every band is
      well formed and the minimums fit in the budget. */
  lemma ConstraintSetNonEmpty(bands: seq<Band>, budget: real)
    ensures (exists s :: WithinConstraints(s, bands, budget)) <==> (WellFormed(bands) && Sum(Los(bands)) <= budget)
  {
    if WellFormed(bands) && Sum(Los(bands)) <= budget {
      assert WithinConstraints(Los(bands), bands, budget);
    }
    if s :| WithinConstraints(s, bands, budget) {
      SumMonotone(Los(bands), s);
    }
  }

  /** With the shipped tables and all five channels the solver always has a
      feasible point, whatever the (non-negative) budget. */
  lemma ShippedConstraintsFeasible(budget: real)
    requires budget >= 0.0
    ensures BoundsFor(budget, ShippedNames).Some?
    ensures exists s :: WithinConstraints(s, BoundsFor(budget, ShippedNames).value, budget)
  {
    var bands := BoundsFor(budget, ShippedNames).value;
    BoundsWellFormed(budget, ShippedNames);
    assert Los(bands) == [budget * 0.04, budget * 0.02, budget * 0.01, budget * 0.01, budget * 0.00];
    SumFive(budget * 0.04, budget * 0.02, budget * 0.01, budget * 0.01, budget * 0.00);
    ConstraintSetNonEmpty(bands, budget);
  }

  // ---------------------------------------------------------------------------
  // The feasible baseline
  // ---------------------------------------------------------------------------

  function Min(a: real, b: real): real { if a <= b then a else b }
  function Max(a: real, b: real): real { if a >= b then a else b }
  function Dist(a: real, b: real): real { if a >= b then a - b else b - a }

  /** `min(max(s, lo), hi)`: the point of the band nearest to `s` when the
      band is well formed. */
  function Clamp(s: real, b: Band): (r: real)
    ensures r <= b.hi
    ensures b.lo <= b.hi ==> b.lo <= r
    ensures b.lo <= s <= b.hi ==> r == s
    ensures b.lo <= b.hi ==> forall x :: b.lo <= x <= b.hi ==> Dist(r, s) <= Dist(x, s)
  {
    Min(Max(s, b.lo), b.hi)
  }

  /** A channel still below its cap takes part in redistribution. */
  predicate Eligible(s: real, b: Band)
  {
    s < b.hi
  }

  /** Spare room below the cap of an eligible channel; zero otherwise. */
  function Capacity(s: real, b: Band): (r: real)
    ensures r >= 0.0
    ensures r > 0.0 <==> Eligible(s, b)
  {
    if Eligible(s, b) then b.hi - s else 0.0
  }

  function Capacities(spend: seq<real>, bands: seq<Band>): (r: seq<real>)
    requires |spend| == |bands|
    ensures |r| == |spend| && forall i :: 0 <= i < |spend| ==> r[i] == Capacity(spend[i], bands[i])
  {
    seq(|spend|, i requires 0 <= i < |spend| => Capacity(spend[i], bands[i]))
  }

  /** Total spare room is zero exactly when no channel is eligible. */
  lemma TotalCapacityZero(spend: seq<real>, bands: seq<Band>)
    requires |spend| == |bands|
    ensures Sum(Capacities(spend, bands)) >= 0.0
    ensures Sum(Capacities(spend, bands)) == 0.0 <==> forall i :: 0 <= i < |spend| ==> !Eligible(spend[i], bands[i])
  {
    var caps := Capacities(spend, bands);
    SumAtLeast(caps, 0.0);
    if Sum(caps) == 0.0 {
      SumZeroOfNonNegative(caps);
    } else {
      if forall i :: 0 <= i < |spend| ==> !Eligible(spend[i], bands[i]) {
        SumAtMost(caps, 0.0);
      }
    }
  }

  /** Hands `remaining` to the channels still below their cap, each in
      proportion to its spare room; channels at or above their cap keep
      their spend. With no eligible channel nothing changes. */
  function Redistribute(spend: seq<real>, bands: seq<Band>, remaining: real): (r: seq<real>)
    requires |spend| == |bands|
    ensures |r| == |spend|
    ensures forall i :: 0 <= i < |spend| && !Eligible(spend[i], bands[i]) ==> r[i] == spend[i]
  {
    Spread(spend, Capacities(spend, bands), remaining)
  }

  /** One channel's part of the leftover budget: the fraction
      `remaining / total` of its spare room. */
  function Share(remaining: real, cap: real, total: real): real
    requires total != 0.0
  {
    (remaining / total) * cap
  }

  /** The share is the dashboard's `remaining * cap / total`. */
  lemma ShareScales(remaining: real, cap: real, total: real)
    requires total != 0.0
    ensures Share(remaining, cap, total) == remaining * cap / total
  {
  }

  /** One channel's redistributed spend: its own spend plus its share of
      `remaining`, in proportion to its spare room. */
  lemma RedistributeAt(spend: seq<real>, bands: seq<Band>, remaining: real, i: nat)
    requires |spend| == |bands| && i < |spend|
    requires Sum(Capacities(spend, bands)) != 0.0
    ensures Redistribute(spend, bands, remaining)[i]
            == spend[i] + Share(remaining, Capacities(spend, bands)[i], Sum(Capacities(spend, bands)))
  {
    var caps := Capacities(spend, bands);
    SpreadAt(spend, caps, remaining, i);
    RateShare(remaining, caps, i);
  }

  /** The rate per unit of spare room times a channel's room is that
      channel's share. */
  lemma RateShare(remaining: real, caps: seq<real>, i: nat)
    requires i < |caps| && Sum(caps) != 0.0
    ensures Rate(remaining, caps) * caps[i] == Share(remaining, caps[i], Sum(caps))
  {
  }

  /** With some spare room, every channel gains one common multiple `k` of
      its own spare room, and `k` times the total spare room is `remaining`. */
  lemma RedistributeLinear(spend: seq<real>, bands: seq<Band>, remaining: real) returns (k: real)
    requires |spend| == |bands|
    requires Sum(Capacities(spend, bands)) != 0.0
    ensures k * Sum(Capacities(spend, bands)) == remaining
    ensures forall i :: 0 <= i < |spend| ==>
              Redistribute(spend, bands, remaining)[i] == spend[i] + k * Capacities(spend, bands)[i]
  {
    var caps := Capacities(spend, bands);
    k := Rate(remaining, caps);
    RateScales(remaining, caps);
    forall i | 0 <= i < |spend|
      ensures Redistribute(spend, bands, remaining)[i] == spend[i] + k * caps[i]
    {
      SpreadAt(spend, caps, remaining, i);
    }
  }

  /** When some channel is eligible the redistributed shares add up to
      exactly `remaining`; otherwise nothing changes. */
  lemma RedistributeConserves(spend: seq<real>, bands: seq<Band>, remaining: real)
    requires |spend| == |bands|
    ensures var total := Sum(Capacities(spend, bands));
            && (total == 0.0 ==> Redistribute(spend, bands, remaining) == spend)
            && (total != 0.0 ==> Sum(Redistribute(spend, bands, remaining)) == Sum(spend) + remaining)
  {
    var caps := Capacities(spend, bands);
    if Sum(caps) != 0.0 {
      SpreadConserves(spend, caps, remaining);
    }
  }

  /** An eligible channel gains iff `remaining` is non-negative, and stays
      within its cap iff `remaining` is at most the total spare room. */
  lemma RedistributeEligible(spend: seq<real>, bands: seq<Band>, remaining: real, i: nat)
    requires |spend| == |bands| && i < |spend|
    requires Eligible(spend[i], bands[i])
    ensures var r := Redistribute(spend, bands, remaining);
            && (spend[i] <= r[i] <==> 0.0 <= remaining)
            && (r[i] <= bands[i].hi <==> remaining <= Sum(Capacities(spend, bands)))
  {
    var total := Sum(Capacities(spend, bands));
    SpareRoomPositive(spend, bands, i);
    RedistributeAt(spend, bands, remaining, i);
    GainBounds(spend[i], bands[i].hi, Redistribute(spend, bands, remaining)[i], remaining, total);
  }

  /** One eligible channel makes the total spare room positive. */
  lemma SpareRoomPositive(spend: seq<real>, bands: seq<Band>, i: nat)
    requires |spend| == |bands| && i < |spend|
    requires Eligible(spend[i], bands[i])
    ensures Sum(Capacities(spend, bands)) > 0.0
  {
    TotalCapacityZero(spend, bands);
  }

  /** A channel with spare room `hi - s` that gains its share of
      `remaining` gains iff `remaining` is non-negative and stays within its
      cap iff `remaining` is at most `total`. */
  lemma GainBounds(s: real, hi: real, v: real, remaining: real, total: real)
    requires s < hi && total > 0.0
    requires v == s + Share(remaining, hi - s, total)
    ensures s <= v <==> 0.0 <= remaining
    ensures v <= hi <==> remaining <= total
  {
    ShareBounds(remaining, hi - s, total);
  }

  /** The share `remaining * cap / total` of a channel with positive spare
      room is non-negative iff `remaining` is, and at most the room iff
      `remaining` is at most `total`. */
  lemma ShareBounds(remaining: real, cap: real, total: real)
    requires cap > 0.0 && total > 0.0
    ensures 0.0 <= Share(remaining, cap, total) <==> 0.0 <= remaining
    ensures Share(remaining, cap, total) <= cap <==> remaining <= total
  {
    var k := remaining / total;
    ShareScales(remaining, cap, total);
    assert 0.0 <= k <==> 0.0 <= remaining;
    assert k <= 1.0 <==> remaining <= total;
    assert k * cap <= 1.0 * cap <==> k <= 1.0;
    assert 0.0 <= k * cap <==> 0.0 <= k;
  }

  function EqualShare(budget: real, n: nat): real
    requires n > 0
  {
    budget / (n as real)
  }

  function ClampedShares(budget: real, bands: seq<Band>): (r: seq<real>)
    requires |bands| > 0
    ensures |r| == |bands|
    ensures forall i :: 0 <= i < |bands| ==> r[i] == Clamp(EqualShare(budget, |bands|), bands[i])
  {
    seq(|bands|, i requires 0 <= i < |bands| => Clamp(EqualShare(budget, |bands|), bands[i]))
  }

  /** The "equal-intent" baseline: split the budget equally, clamp every
      share into its band, then redistribute what is left. None when there
      are no channels (the equal split divides by zero). */
  function Baseline(budget: real, bands: seq<Band>): (r: Option<seq<real>>)
    ensures r.Some? <==> |bands| > 0
    ensures r.Some? ==> |r.value| == |bands|
  {
    if |bands| == 0 then None
    else
      var clamped := ClampedShares(budget, bands);
      Some(Redistribute(clamped, bands, budget - Sum(clamped)))
  }

  /** Spend at or below every cap plus the room left below the caps is the
      sum of the caps. */
  lemma HeadroomIdentity(spend: seq<real>, bands: seq<Band>)
    requires |spend| == |bands|
    requires forall i :: 0 <= i < |spend| ==> spend[i] <= bands[i].hi
    ensures Sum(His(bands)) == Sum(spend) + Sum(Capacities(spend, bands))
  {
    var caps := Capacities(spend, bands);
    forall i | 0 <= i < |spend|
      ensures His(bands)[i] == spend[i] + 1.0 * caps[i]
    {
    }
    SumLinear(spend, caps, 1.0, His(bands));
  }

  /** When the leftover is between zero and the total spare room, every
      channel ends between its pre-redistribution spend and its cap (or
      keeps its spend if it was already at or above the cap). */
  lemma RedistributeWithinBands(spend: seq<real>, bands: seq<Band>, remaining: real)
    requires |spend| == |bands|
    requires 0.0 <= remaining <= Sum(Capacities(spend, bands))
    ensures var r := Redistribute(spend, bands, remaining);
            forall i :: 0 <= i < |spend| ==> spend[i] <= r[i] <= Max(spend[i], bands[i].hi)
  {
    var r := Redistribute(spend, bands, remaining);
    forall i | 0 <= i < |spend|
      ensures spend[i] <= r[i] <= Max(spend[i], bands[i].hi)
    {
      if Eligible(spend[i], bands[i]) {
        RedistributeEligible(spend, bands, remaining, i);
      }
    }
  }

  /** Clamping the equal share into well-formed bands never raises it when
      no minimum exceeds it, so the clamped shares fit in the budget. */
  lemma ClampedSharesFit(budget: real, bands: seq<Band>)
    requires |bands| > 0
    requires WellFormed(bands)
    requires forall i :: 0 <= i < |bands| ==> bands[i].lo <= EqualShare(budget, |bands|)
    ensures Sum(ClampedShares(budget, bands)) <= budget
  {
    var n := |bands|;
    var e := EqualShare(budget, n);
    var c := ClampedShares(budget, bands);
    assert forall i :: 0 <= i < n ==> c[i] <= e;
    SumAtMost(c, e);
    assert (n as real) * e == budget;
  }

  /** What the baseline spends, for every budget and non-empty band list:
      the whole budget when some clamped channel is below its cap, and
      exactly the clamped shares when none is, whatever they add up to. */
  lemma BaselineSpend(budget: real, bands: seq<Band>)
    requires |bands| > 0
    ensures var c := ClampedShares(budget, bands);
            && Baseline(budget, bands).Some?
            && (Sum(Capacities(c, bands)) > 0.0 ==> Sum(Baseline(budget, bands).value) == budget)
            && (Sum(Capacities(c, bands)) == 0.0 ==> Baseline(budget, bands).value == c)
  {
    var c := ClampedShares(budget, bands);
    assert Baseline(budget, bands) == Some(Redistribute(c, bands, budget - Sum(c)));
    RedistributeConserves(c, bands, budget - Sum(c));
  }

  /** With every channel clamped to its cap nothing is redistributed and
      the rest of the budget goes unspent: a single channel capped at 10%
      spends 10% of the budget. */
  lemma BaselineCanUnderspend()
    ensures Baseline(1.0, [Band(0.0, 0.1)]) == Some([0.1])
    ensures Sum(Baseline(1.0, [Band(0.0, 0.1)]).value) < 1.0
  {
    var bands := [Band(0.0, 0.1)];
    var c := ClampedShares(1.0, bands);
    assert c == [0.1];
    assert Capacities(c, bands) == [0.0];
    BaselineSpend(1.0, bands);
  }

  /** The dashboard's claim under a sufficient condition: whenever the
      bands are well formed and the amount left after clamping is between
      zero and the total spare room, the baseline lies in the optimizer's
      constraint set and spends the whole budget. */
  lemma BaselineWithinConstraints(budget: real, bands: seq<Band>)
    requires |bands| > 0
    requires WellFormed(bands)
    requires var c := ClampedShares(budget, bands);
             0.0 <= budget - Sum(c) <= Sum(Capacities(c, bands))
    ensures Baseline(budget, bands).Some?
    ensures WithinConstraints(Baseline(budget, bands).value, bands, budget)
    ensures Sum(Baseline(budget, bands).value) == budget
  {
    var c := ClampedShares(budget, bands);
    var remaining := budget - Sum(c);
    var r := Redistribute(c, bands, remaining);
    assert Baseline(budget, bands) == Some(r);
    RedistributeWithinBands(c, bands, remaining);
    RedistributeConserves(c, bands, remaining);
    assert forall i :: 0 <= i < |bands| ==> Max(c[i], bands[i].hi) == bands[i].hi;
  }

  /** Simple sufficient conditions for the claim: well-formed bands, no
      minimum above the equal share, and caps that add up to at least the
      budget. */
  lemma BaselineMeetsConstraints(budget: real, bands: seq<Band>)
    requires |bands| > 0
    requires WellFormed(bands)
    requires forall i :: 0 <= i < |bands| ==> bands[i].lo <= EqualShare(budget, |bands|)
    requires budget <= Sum(His(bands))
    ensures Baseline(budget, bands).Some?
    ensures WithinConstraints(Baseline(budget, bands).value, bands, budget)
    ensures Sum(Baseline(budget, bands).value) == budget
  {
    var c := ClampedShares(budget, bands);
    ClampedSharesFit(budget, bands);
    HeadroomIdentity(c, bands);
    BaselineWithinConstraints(budget, bands);
  }

  /** The bands derived for the five shipped channels. */
  lemma ShippedBands(budget: real)
    ensures BoundsFor(budget, ShippedNames)
            == Some([Band(budget * 0.04, budget * 0.40), Band(budget * 0.02, budget * 0.30),
                     Band(budget * 0.01, budget * 0.20), Band(budget * 0.01, budget * 0.16),
                     Band(budget * 0.00, budget * 0.10)])
  {
    LookupName(PaidSearch);
    LookupName(SocialAds);
    LookupName(Affiliate);
    LookupName(Referral);
    LookupName(Organic);
    assert forall k :: 0 <= k < 5 ==> ShippedNames[k] == Name(AllChannels[k]);
    var r := BoundsFor(budget, ShippedNames);
    assert r.Some?;
    assert r.value[0] == BandOf(budget, PaidSearch);
    assert r.value[1] == BandOf(budget, SocialAds);
    assert r.value[2] == BandOf(budget, Affiliate);
    assert r.value[3] == BandOf(budget, Referral);
    assert r.value[4] == BandOf(budget, Organic);
    assert r.value == [BandOf(budget, PaidSearch), BandOf(budget, SocialAds), BandOf(budget, Affiliate),
                       BandOf(budget, Referral), BandOf(budget, Organic)];
  }

  /** With all five shipped channels the baseline meets the optimizer's
      constraints and spends the whole budget, for every positive budget. */
  lemma ShippedBaselineFeasible(budget: real)
    requires budget > 0.0
    ensures BoundsFor(budget, ShippedNames).Some?
    ensures var bands := BoundsFor(budget, ShippedNames).value;
            && Baseline(budget, bands).Some?
            && WithinConstraints(Baseline(budget, bands).value, bands, budget)
            && Sum(Baseline(budget, bands).value) == budget
  {
    ShippedBands(budget);
    var bands := BoundsFor(budget, ShippedNames).value;
    BoundsWellFormed(budget, ShippedNames);
    assert His(bands) == [budget * 0.40, budget * 0.30, budget * 0.20, budget * 0.16, budget * 0.10];
    SumFive(budget * 0.40, budget * 0.30, budget * 0.20, budget * 0.16, budget * 0.10);
    BaselineMeetsConstraints(budget, bands);
  }

  /** With all five shipped channels the equal fifth stays as it is for
      paid search, social ads and affiliate and is cut to the caps of
      referral (16%) and organic (10%); 14% of the budget is left over and
      only paid search and social ads have room, 20% and 10%. */
  lemma ShippedClamped(budget: real)
    requires budget > 0.0
    ensures var bands := BoundsFor(budget, ShippedNames).value;
            var c := ClampedShares(budget, bands);
            && c == [budget / 5.0, budget / 5.0, budget / 5.0, budget * 0.16, budget * 0.10]
            && Sum(c) == budget * 0.86
            && Capacities(c, bands) == [budget * 0.2, budget * 0.1, 0.0, 0.0, 0.0]
            && Sum(Capacities(c, bands)) == budget * 0.3
  {
    ShippedBands(budget);
    ShippedShares(budget);
    var e := budget / 5.0;
    SumFive(e, e, e, budget * 0.16, budget * 0.10);
    ShippedRoom(budget);
  }

  /** The equal fifth clamped into each shipped band. */
  lemma ShippedShares(budget: real)
    requires budget > 0.0
    ensures ClampedShares(budget, [Band(budget * 0.04, budget * 0.40), Band(budget * 0.02, budget * 0.30),
                                   Band(budget * 0.01, budget * 0.20), Band(budget * 0.01, budget * 0.16),
                                   Band(budget * 0.00, budget * 0.10)])
            == [budget / 5.0, budget / 5.0, budget / 5.0, budget * 0.16, budget * 0.10]
  {
    var bands := [Band(budget * 0.04, budget * 0.40), Band(budget * 0.02, budget * 0.30),
                  Band(budget * 0.01, budget * 0.20), Band(budget * 0.01, budget * 0.16),
                  Band(budget * 0.00, budget * 0.10)];
    var e := EqualShare(budget, 5);
    assert e == budget / 5.0;
    var c := ClampedShares(budget, bands);
    assert c[0] == e && c[1] == e && c[2] == e;
    assert c[3] == budget * 0.16 && c[4] == budget * 0.10;
  }

  /** The room below the caps left by the clamped shipped shares: 20% and
      10% of the budget on paid search and social ads, none elsewhere. */
  lemma ShippedRoom(budget: real)
    requires budget > 0.0
    ensures var caps := Capacities([budget / 5.0, budget / 5.0, budget / 5.0, budget * 0.16, budget * 0.10],
                                   [Band(budget * 0.04, budget * 0.40), Band(budget * 0.02, budget * 0.30),
                                    Band(budget * 0.01, budget * 0.20), Band(budget * 0.01, budget * 0.16),
                                    Band(budget * 0.00, budget * 0.10)]);
            && caps == [budget * 0.2, budget * 0.1, 0.0, 0.0, 0.0]
            && Sum(caps) == budget * 0.3
  {
    var caps := Capacities([budget / 5.0, budget / 5.0, budget / 5.0, budget * 0.16, budget * 0.10],
                           [Band(budget * 0.04, budget * 0.40), Band(budget * 0.02, budget * 0.30),
                            Band(budget * 0.01, budget * 0.20), Band(budget * 0.01, budget * 0.16),
                            Band(budget * 0.00, budget * 0.10)]);
    assert caps[0] == budget * 0.2 && caps[1] == budget * 0.1;
    assert caps[2] == 0.0 && caps[3] == 0.0 && caps[4] == 0.0;
    assert caps == [budget * 0.2, budget * 0.1, 0.0, 0.0, 0.0];
    SumFive(budget * 0.2, budget * 0.1, 0.0, 0.0, 0.0);
  }

  /** Shares of budget fractions are budget fractions. */
  lemma ShareOfBudget(budget: real, x: real, y: real, z: real)
    requires budget > 0.0 && z != 0.0
    ensures Share(budget * x, budget * y, budget * z) == budget * (x * y / z)
  {
    var q := x * y / z;
    assert q * z == x * y;
    var num := (budget * x) * (budget * y);
    assert num == (budget * budget) * (x * y);
    assert num == (budget * budget) * (q * z);
    assert num == (budget * z) * (budget * q);
    assert num / (budget * z) == budget * q;
  }

  /** Redistribution of the 14% left over on the clamped shipped shares:
      paid search and social ads have room 20% and 10%, so they receive the
      leftover in a 2:1 ratio and the other channels keep their shares. */
  lemma ShippedRedistribution(budget: real)
    requires budget > 0.0
    ensures Redistribute([budget / 5.0, budget / 5.0, budget / 5.0, budget * 0.16, budget * 0.10],
                         [Band(budget * 0.04, budget * 0.40), Band(budget * 0.02, budget * 0.30),
                          Band(budget * 0.01, budget * 0.20), Band(budget * 0.01, budget * 0.16),
                          Band(budget * 0.00, budget * 0.10)],
                         budget * 0.14)
            == [budget * 22.0 / 75.0, budget * 37.0 / 150.0, budget / 5.0, budget * 4.0 / 25.0, budget / 10.0]
  {
    var c := [budget / 5.0, budget / 5.0, budget / 5.0, budget * 0.16, budget * 0.10];
    var bands := [Band(budget * 0.04, budget * 0.40), Band(budget * 0.02, budget * 0.30),
                  Band(budget * 0.01, budget * 0.20), Band(budget * 0.01, budget * 0.16),
                  Band(budget * 0.00, budget * 0.10)];
    ShippedRoom(budget);
    var r := Redistribute(c, bands, budget * 0.14);
    GainOfBudget(budget, c, bands, 0, 0.14, 0.2, 0.3);
    assert r[0] == budget * 22.0 / 75.0;
    GainOfBudget(budget, c, bands, 1, 0.14, 0.1, 0.3);
    assert r[1] == budget * 37.0 / 150.0;
    assert r[2] == c[2] && r[3] == c[3] && r[4] == c[4];
  }

  /** A channel whose room and the total room are budget fractions `y` and
      `z` gains the budget fraction `x * y / z` out of a leftover `x`. */
  lemma GainOfBudget(budget: real, spend: seq<real>, bands: seq<Band>, i: nat, x: real, y: real, z: real)
    requires |spend| == |bands| && i < |spend|
    requires budget > 0.0 && z != 0.0
    requires Capacities(spend, bands)[i] == budget * y
    requires Sum(Capacities(spend, bands)) == budget * z
    ensures Redistribute(spend, bands, budget * x)[i] == spend[i] + budget * (x * y / z)
  {
    RedistributeAt(spend, bands, budget * x, i);
    ShareOfBudget(budget, x, y, z);
  }

  /** With all five shipped channels the baseline is
      (22/75, 37/150, 1/5, 4/25, 1/10) of the budget. */
  lemma ShippedBaselineValues(budget: real)
    requires budget > 0.0
    ensures BoundsFor(budget, ShippedNames).Some?
    ensures Baseline(budget, BoundsFor(budget, ShippedNames).value)
            == Some([budget * 22.0 / 75.0, budget * 37.0 / 150.0, budget / 5.0, budget * 4.0 / 25.0, budget / 10.0])
  {
    ShippedBands(budget);
    ShippedClamped(budget);
    ShippedRedistribution(budget);
    var bands := BoundsFor(budget, ShippedNames).value;
    var c := ClampedShares(budget, bands);
    assert budget - Sum(c) == budget * 0.14;
  }

  /** A minimum above the equal share breaks the claim: the clamp raises
      that channel, `remaining` turns negative and redistribution pushes the
      same channel back below its minimum. */
  lemma BaselineCanUndercutMinimum()
    ensures var bands := [Band(0.9, 1.0), Band(0.0, 1.0)];
            && Baseline(1.0, bands) == Some([5.0 / 6.0, 1.0 / 6.0])
            && !WithinConstraints(Baseline(1.0, bands).value, bands, 1.0)
  {
    var bands := [Band(0.9, 1.0), Band(0.0, 1.0)];
    var c := ClampedShares(1.0, bands);
    assert c == [0.9, 0.5];
    SumTwo(0.9, 0.5);
    var caps := Capacities(c, bands);
    assert caps == [0.1, 0.5];
    SumTwo(0.1, 0.5);
    var r := Redistribute(c, bands, -0.4);
    RedistributeAt(c, bands, -0.4, 0);
    RedistributeAt(c, bands, -0.4, 1);
    assert Share(-0.4, 0.1, 0.6) == -1.0 / 15.0;
    assert Share(-0.4, 0.5, 0.6) == -1.0 / 3.0;
    assert r == [5.0 / 6.0, 1.0 / 6.0];
  }

  /** Caps that add up to less than the budget break the claim too: a
      channel summary listing only paid search, social ads and affiliate
      sends half the budget to paid search, above its 40% cap. */
  lemma BaselineCanExceedCap()
    ensures BoundsFor(1.0, ["paid_search", "social_ads", "affiliate"]).Some?
    ensures var bands := BoundsFor(1.0, ["paid_search", "social_ads", "affiliate"]).value;
            && Baseline(1.0, bands) == Some([0.5, 0.3, 0.2])
            && Baseline(1.0, bands).value[0] > bands[0].hi
  {
    LookupName(PaidSearch);
    LookupName(SocialAds);
    LookupName(Affiliate);
    var names := ["paid_search", "social_ads", "affiliate"];
    assert names == [Name(PaidSearch), Name(SocialAds), Name(Affiliate)];
    var bands := BoundsFor(1.0, names).value;
    assert bands == [Band(0.04, 0.40), Band(0.02, 0.30), Band(0.01, 0.20)];
    var c := ClampedShares(1.0, bands);
    assert c == [1.0 / 3.0, 0.3, 0.2];
    SumThree(1.0 / 3.0, 0.3, 0.2);
    var caps := Capacities(c, bands);
    assert caps == [0.4 - 1.0 / 3.0, 0.0, 0.0];
    SumThree(0.4 - 1.0 / 3.0, 0.0, 0.0);
    var r := Redistribute(c, bands, 1.0 / 6.0);
    RedistributeAt(c, bands, 1.0 / 6.0, 0);
    assert Share(1.0 / 6.0, 0.4 - 1.0 / 3.0, 0.4 - 1.0 / 3.0) == 1.0 / 6.0;
    assert r == [0.5, 0.3, 0.2];
  }

  // ---------------------------------------------------------------------------
  // Expected incremental value and lift
  // ---------------------------------------------------------------------------

  predicate Costed(stats: seq<ChannelStats>)
  {
    forall i :: 0 <= i < |stats| ==> stats[i].avgCost != 0.0
  }

  /** `spend * incremental_ltv / avg_cost`. */
  function ExpectedValue(spend: real, c: ChannelStats): (v: real)
    requires c.avgCost != 0.0
    ensures v * c.avgCost == spend * c.incrementalLtv
  {
    DivMul(spend * c.incrementalLtv, c.avgCost);
    spend * c.incrementalLtv / c.avgCost
  }

  /** With a non-negative LTV and a positive cost, more spend never yields
      less expected value, and the value is linear in spend. */
  lemma ExpectedValueMonotone(a: real, b: real, c: ChannelStats)
    requires c.incrementalLtv >= 0.0 && c.avgCost > 0.0
    ensures a <= b ==> ExpectedValue(a, c) <= ExpectedValue(b, c)
    ensures ExpectedValue(a + b, c) == ExpectedValue(a, c) + ExpectedValue(b, c)
  {
    var k := c.incrementalLtv / c.avgCost;
    assert k >= 0.0;
    assert ExpectedValue(a, c) == a * k;
    assert ExpectedValue(b, c) == b * k;
    assert ExpectedValue(a + b, c) == (a + b) * k;
    if a <= b {
      assert (b - a) * k >= 0.0;
    }
  }

  function ChannelValues(spend: seq<real>, stats: seq<ChannelStats>): (r: seq<real>)
    requires |spend| == |stats| && Costed(stats)
    ensures |r| == |spend| && forall i :: 0 <= i < |spend| ==> r[i] == ExpectedValue(spend[i], stats[i])
  {
    seq(|spend|, i requires 0 <= i < |spend| => ExpectedValue(spend[i], stats[i]))
  }

  /** Total expected incremental value of an allocation. */
  function TotalValue(spend: seq<real>, stats: seq<ChannelStats>): real
    requires |spend| == |stats| && Costed(stats)
  {
    Sum(ChannelValues(spend, stats))
  }

  /** Raising no channel's spend never lowers the total value when every
      channel has non-negative LTV and positive cost. */
  lemma TotalValueMonotone(a: seq<real>, b: seq<real>, stats: seq<ChannelStats>)
    requires |a| == |b| == |stats|
    requires forall i :: 0 <= i < |stats| ==> stats[i].incrementalLtv >= 0.0 && stats[i].avgCost > 0.0
    requires forall i :: 0 <= i < |a| ==> a[i] <= b[i]
    ensures TotalValue(a, stats) <= TotalValue(b, stats)
  {
    forall i | 0 <= i < |a|
      ensures ExpectedValue(a[i], stats[i]) <= ExpectedValue(b[i], stats[i])
    {
      ExpectedValueMonotone(a[i], b[i], stats[i]);
    }
    SumMonotone(ChannelValues(a, stats), ChannelValues(b, stats));
  }

  /** The solver's coefficient for a channel: value per dollar. */
  function ValuePerDollar(c: ChannelStats): (v: real)
    requires c.avgCost != 0.0
    ensures v * c.avgCost == c.incrementalLtv
  {
    DivMul(c.incrementalLtv, c.avgCost);
    c.incrementalLtv / c.avgCost
  }

  /** The objective the solver maximises. */
  function Objective(spend: seq<real>, stats: seq<ChannelStats>): real
    requires |spend| == |stats| && Costed(stats)
  {
    Sum(seq(|spend|, i requires 0 <= i < |spend| => ValuePerDollar(stats[i]) * spend[i]))
  }

  /** The solver's objective at any allocation is that allocation's total
      expected value, so the reported optimized value is what the solver
      maximised. */
  lemma ObjectiveIsTotalValue(spend: seq<real>, stats: seq<ChannelStats>)
    requires |spend| == |stats| && Costed(stats)
    ensures Objective(spend, stats) == TotalValue(spend, stats)
  {
    var o := seq(|spend|, i requires 0 <= i < |spend| => ValuePerDollar(stats[i]) * spend[i]);
    forall i | 0 <= i < |spend|
      ensures o[i] == ChannelValues(spend, stats)[i]
    {
      assert ValuePerDollar(stats[i]) * spend[i] == spend[i] * stats[i].incrementalLtv / stats[i].avgCost;
    }
    SumPointwise(o, ChannelValues(spend, stats));
  }

  /** Per-channel `value_lift`: optimized value minus baseline value. */
  function ValueLifts(baseline: seq<real>, optimized: seq<real>, stats: seq<ChannelStats>): (r: seq<real>)
    requires |baseline| == |optimized| == |stats| && Costed(stats)
    ensures |r| == |stats|
  {
    seq(|stats|, i requires 0 <= i < |stats| =>
      ExpectedValue(optimized[i], stats[i]) - ExpectedValue(baseline[i], stats[i]))
  }

  /** `delta_value`: optimized total minus baseline total. */
  function DeltaValue(baseline: seq<real>, optimized: seq<real>, stats: seq<ChannelStats>): real
    requires |baseline| == |optimized| == |stats| && Costed(stats)
  {
    TotalValue(optimized, stats) - TotalValue(baseline, stats)
  }

  /** The per-channel lifts in the comparison table add up to the headline
      incremental lift. */
  lemma LiftsSumToDelta(baseline: seq<real>, optimized: seq<real>, stats: seq<ChannelStats>)
    requires |baseline| == |optimized| == |stats| && Costed(stats)
    ensures Sum(ValueLifts(baseline, optimized, stats)) == DeltaValue(baseline, optimized, stats)
  {
    var lifts := ValueLifts(baseline, optimized, stats);
    SumLinear(ChannelValues(optimized, stats), ChannelValues(baseline, stats), -1.0, lifts);
  }

  // ---------------------------------------------------------------------------
  // Policy explanation
  // ---------------------------------------------------------------------------

  datatype Policy = Increased | Reduced | Stable

  /** Classifies a channel's baseline-to-optimized spend change: more than
      20% up, else more than 20% down, else stable. */
  function ExplainPolicy(baseline: real, optimized: real): (p: Policy)
    ensures p == Increased <==> optimized > baseline * 1.2
    ensures p == Reduced <==> optimized <= baseline * 1.2 && optimized < baseline * 0.8
    ensures p == Stable <==> baseline * 0.8 <= optimized <= baseline * 1.2
  {
    if optimized > baseline * 1.2 then Increased
    else if optimized < baseline * 0.8 then Reduced
    else Stable
  }

  /** The sentence the dashboard shows for each policy. */
  function Explanation(p: Policy): string
  {
    match p
    case Increased => "Spend increased due to strong incremental LTV per dollar and superior retention."
    case Reduced => "Spend reduced due to weak incremental value despite surface-level conversions."
    case Stable => "Spend remained stable as incremental value was consistent with baseline performance."
  }

  /** For a non-negative baseline the "increased" and "reduced" conditions
      never hold together, so the order of the tests does not matter; and a
      channel whose spend did not move is reported stable. */
  lemma PolicyConditionsExclusive(baseline: real, optimized: real)
    requires baseline >= 0.0
    ensures !(optimized > baseline * 1.2 && optimized < baseline * 0.8)
    ensures ExplainPolicy(baseline, baseline) == Stable
  {
  }

  /** For a negative baseline both conditions hold at once and the first
      test wins: a channel whose spend did not move is reported
      "increased". */
  lemma PolicyConditionsOverlapBelowZero(baseline: real)
    requires baseline < 0.0
    ensures baseline > baseline * 1.2 && baseline < baseline * 0.8
    ensures ExplainPolicy(baseline, baseline) == Increased
  {
  }

  /** The three sentences differ pairwise. */
  lemma IncreasedReadsUnlikeReduced()
    ensures Explanation(Increased) != Explanation(Reduced)
  {
  }

  lemma IncreasedReadsUnlikeStable()
    ensures Explanation(Increased) != Explanation(Stable)
  {
  }

  lemma ReducedReadsUnlikeStable()
    ensures Explanation(Reduced) != Explanation(Stable)
  {
  }

  /** So the sentence shown identifies the policy. */
  lemma ExplanationsDistinct(p: Policy, q: Policy)
    ensures Explanation(p) == Explanation(q) <==> p == q
  {
    IncreasedReadsUnlikeReduced();
    IncreasedReadsUnlikeStable();
    ReducedReadsUnlikeStable();
  }

  /** The sentence the dashboard shows for a spend change, in terms of the
      two spends. */
  lemma ExplainedSpendChange(baseline: real, optimized: real)
    ensures Explanation(ExplainPolicy(baseline, optimized)) == Explanation(Increased)
            <==> optimized > baseline * 1.2
    ensures Explanation(ExplainPolicy(baseline, optimized)) == Explanation(Reduced)
            <==> optimized <= baseline * 1.2 && optimized < baseline * 0.8
    ensures Explanation(ExplainPolicy(baseline, optimized)) == Explanation(Stable)
            <==> baseline * 0.8 <= optimized <= baseline * 1.2
  {
    ExplanationsDistinct(ExplainPolicy(baseline, optimized), Increased);
    ExplanationsDistinct(ExplainPolicy(baseline, optimized), Reduced);
    ExplanationsDistinct(ExplainPolicy(baseline, optimized), Stable);
  }
}

=== FILE: diff_in_diff.dfy ===
/** The difference-in-differences estimate of the feature-impact analysis.
    Events are grouped by (day, treated, post); each group's ESAU is its
    rows over its distinct users; each of the four treated/post cells is
    summarised by the mean of its groups' ESAU, and the estimate is the
    treated group's pre-to-post change minus the control group's.

    A cell with no rows has no mean (pandas gives NaN); `Option` carries
    that absence through to the estimate and to its percentage. */
module DiffInDiff {
  import opened Wrappers
  import opened Seqs
  import opened Engagement

  /** The grouping key of the per-day, per-cell table. */
  datatype CellKey = CellKey(day: int, treated: bool, post: bool)

  /** `treated` is the exposure flag; `post` is the launch comparison. */
  function KeyOf(launch: int): Event -> CellKey
  {
    (e: Event) => CellKey(e.day, e.exposed, e.time >= launch)
  }

  /** The `daily_group_metrics` table: one row per (day, treated, post)
      present, with its row count, distinct users and ESAU. */
  function GroupedMetrics(events: seq<Event>, launch: int): seq<Group<CellKey>>
  {
    GroupBy(events, KeyOf(launch))
  }

  function InCell(launch: int, treated: bool, post: bool): Event -> bool
  {
    (e: Event) => e.exposed == treated && (e.time >= launch) == post
  }

  /** The events of one treated/post cell. */
  function Cell(events: seq<Event>, launch: int, treated: bool, post: bool): seq<Event>
  {
    Filter(events, InCell(launch, treated, post))
  }

  function KeyInCell(treated: bool, post: bool): CellKey -> bool
  {
    (k: CellKey) => k.treated == treated && k.post == post
  }

  function RowIn(treated: bool, post: bool): Group<CellKey> -> bool
  {
    (g: Group<CellKey>) => g.key.treated == treated && g.key.post == post
  }

  function DayKey(treated: bool, post: bool): int -> CellKey
  {
    (d: int) => CellKey(d, treated, post)
  }

  /** `query('treated == t and post == p')['esau'].mean()`: absent exactly
      when no row of the table belongs to the cell. */
  function CellMean(rows: seq<Group<CellKey>>, treated: bool, post: bool): (r: Option<real>)
    ensures r.None? <==> forall g :: g in rows ==> !(g.key.treated == treated && g.key.post == post)
  {
    var sel := Filter(rows, RowIn(treated, post));
    if |sel| == 0 then None
    else
      assert sel[0] in sel;
      Some(Mean(Esaus(sel)))
  }

  // ---------------------------------------------------------------------------
  // The cell mean is the cell's own ESAU
  // ---------------------------------------------------------------------------

  lemma GroupsForCons<K(!new)>(events: seq<Event>, keyOf: Event -> K, ks: seq<K>)
    requires |ks| > 0
    requires forall k :: k in ks ==> k in Map(keyOf, events)
    ensures GroupsFor(events, keyOf, ks) == [GroupOf(events, keyOf, ks[0])] + GroupsFor(events, keyOf, ks[1..])
  {
    assert ks[0] in ks;
  }

  /** Selecting the rows of a cell from a table of groups is building the
      table for the keys of that cell only. */
  lemma {:induction false} FilterGroupsFor(events: seq<Event>, keyOf: Event -> CellKey, ks: seq<CellKey>, treated: bool, post: bool)
    requires forall k :: k in ks ==> k in Map(keyOf, events)
    ensures Filter(GroupsFor(events, keyOf, ks), RowIn(treated, post))
            == GroupsFor(events, keyOf, Filter(ks, KeyInCell(treated, post)))
  {
    if |ks| > 0 {
      var gs := GroupsFor(events, keyOf, ks);
      var rest := ks[1..];
      var g := GroupOf(events, keyOf, ks[0]);
      var fr := Filter(rest, KeyInCell(treated, post));
      FilterGroupsFor(events, keyOf, rest, treated, post);
      GroupsForCons(events, keyOf, ks);
      assert gs == [g] + GroupsFor(events, keyOf, rest);
      assert Filter(gs, RowIn(treated, post))
             == (if RowIn(treated, post)(g) then [g] else []) + GroupsFor(events, keyOf, fr) by {
        assert gs[1..] == GroupsFor(events, keyOf, rest);
      }
      assert Filter(ks, KeyInCell(treated, post))
             == (if KeyInCell(treated, post)(ks[0]) then [ks[0]] else []) + fr;
      if KeyInCell(treated, post)(ks[0]) {
        GroupsForCons(events, keyOf, [ks[0]] + fr);
        assert ([ks[0]] + fr)[1..] == fr;
      }
    }
  }

  /** Within a cell, the rows of one (day, cell) group are the cell's rows
      of that day. */
  lemma CellMembers(events: seq<Event>, launch: int, d: int, treated: bool, post: bool)
    ensures Members(events, KeyOf(launch), CellKey(d, treated, post))
            == Members(Cell(events, launch, treated, post), Day, d)
  {
    var inCell := InCell(launch, treated, post);
    var onDay := KeyIs(Day, d);
    var both := KeyIs(KeyOf(launch), CellKey(d, treated, post));
    forall x | x in events
      ensures both(x) == (inCell(x) && onDay(x))
    {
      assert KeyOf(launch)(x) == CellKey(x.day, x.exposed, x.time >= launch);
      assert both(x) == (KeyOf(launch)(x) == CellKey(d, treated, post));
      assert inCell(x) == (x.exposed == treated && (x.time >= launch) == post);
      assert onDay(x) == (Day(x) == d);
    }
    FilterFilter(events, inCell, onDay, both);
  }

  /** The keys of a cell in the grouped table are the days of the cell's
      events, each once. */
  lemma CellKeys(events: seq<Event>, launch: int, treated: bool, post: bool)
    ensures Filter(Distinct(Map(KeyOf(launch), events)), KeyInCell(treated, post))
            == Map(DayKey(treated, post), Distinct(Map(Day, Cell(events, launch, treated, post))))
  {
    var c := Cell(events, launch, treated, post);
    DistinctFilter(Map(KeyOf(launch), events), KeyInCell(treated, post));
    MapFilter(events, KeyOf(launch), KeyInCell(treated, post), InCell(launch, treated, post));
    MapThrough(c, KeyOf(launch), DayKey(treated, post), Day);
    DistinctMap(DayKey(treated, post), Map(Day, c));
  }

  /** Group by group, the cell's rows of the grouped table carry the daily
      ESAU of the cell's events. */
  lemma CellGroups(events: seq<Event>, launch: int, treated: bool, post: bool, ds: seq<int>)
    requires forall d :: d in ds ==> d in Map(Day, Cell(events, launch, treated, post))
    requires forall k :: k in Map(DayKey(treated, post), ds) ==> k in Map(KeyOf(launch), events)
    ensures Esaus(GroupsFor(events, KeyOf(launch), Map(DayKey(treated, post), ds)))
            == Esaus(GroupsFor(Cell(events, launch, treated, post), Day, ds))
  {
    var ks := Map(DayKey(treated, post), ds);
    forall i | 0 <= i < |ds|
      ensures GroupOf(events, KeyOf(launch), ks[i]).esau
              == GroupOf(Cell(events, launch, treated, post), Day, ds[i]).esau
    {
      assert ks[i] in ks;
      CellMembers(events, launch, ds[i], treated, post);
    }
  }

  /** The mean the analysis reads from the grouped table for a cell is the
      ESAU of that cell's events computed directly, and it is absent exactly
      when the cell has no events. */
  lemma CellMeanIsCellEsau(events: seq<Event>, launch: int, treated: bool, post: bool)
    ensures var c := Cell(events, launch, treated, post);
            CellMean(GroupedMetrics(events, launch), treated, post)
            == if |c| == 0 then None else Some(ComputeEsau(c))
  {
    var c := Cell(events, launch, treated, post);
    var keyOf := KeyOf(launch);
    var ks := Distinct(Map(keyOf, events));
    var ds := Distinct(Map(Day, c));
    CellKeys(events, launch, treated, post);
    var kc := Filter(ks, KeyInCell(treated, post));
    assert kc == Map(DayKey(treated, post), ds);
    FilterGroupsFor(events, keyOf, ks, treated, post);
    CellGroups(events, launch, treated, post, ds);
    var sel := Filter(GroupedMetrics(events, launch), RowIn(treated, post));
    assert sel == GroupsFor(events, keyOf, kc);
    assert |sel| == |ds|;
    if |c| > 0 {
      assert Map(Day, c)[0] in ds;
      assert Esaus(sel) == Esaus(DailyEsau(c));
    } else {
      assert |Map(Day, c)| == 0;
    }
  }

  // ---------------------------------------------------------------------------
  // The estimate
  // ---------------------------------------------------------------------------

  /** The four cell means. */
  datatype CellMeans = CellMeans(preTreated: real, postTreated: real, preControl: real, postControl: real)

  /** Treated change minus control change: zero exactly when both groups
      moved by the same amount, positive exactly when the treated group
      gained more (or lost less). */
  function Did(c: CellMeans): (r: real)
    ensures r == 0.0 <==> c.postTreated - c.preTreated == c.postControl - c.preControl
    ensures r > 0.0 <==> c.postTreated - c.preTreated > c.postControl - c.preControl
  {
    (c.postTreated - c.preTreated) - (c.postControl - c.preControl)
  }

  /** Exchanging the treated and control groups. */
  function SwapRoles(c: CellMeans): CellMeans
  {
    CellMeans(c.preControl, c.postControl, c.preTreated, c.postTreated)
  }

  /** The estimate is antisymmetric in the roles of the two groups, and a
      common shift of every cell leaves it unchanged. */
  lemma DidSwapRoles(c: CellMeans, k: real)
    ensures Did(SwapRoles(c)) == -Did(c)
    ensures Did(CellMeans(c.preTreated + k, c.postTreated + k, c.preControl + k, c.postControl + k)) == Did(c)
  {
  }

  /** `did_estimate`, read from the grouped table; NaN (absent) when any of
      the four cells is empty. */
  function DidEstimate(events: seq<Event>, launch: int): Option<real>
  {
    var rows := GroupedMetrics(events, launch);
    DidOfMeans(CellMean(rows, true, false), CellMean(rows, true, true), CellMean(rows, false, false), CellMean(rows, false, true))
  }

  /** The estimate over four possibly missing means: missing if any is. */
  function DidOfMeans(preTreated: Option<real>, postTreated: Option<real>, preControl: Option<real>, postControl: Option<real>): (r: Option<real>)
    ensures r.Some? <==> preTreated.Some? && postTreated.Some? && preControl.Some? && postControl.Some?
  {
    if preTreated.Some? && postTreated.Some? && preControl.Some? && postControl.Some? then
      Some(Did(CellMeans(preTreated.value, postTreated.value, preControl.value, postControl.value)))
    else None
  }

  /** Whether every treated/post cell has events. */
  predicate AllCellsPresent(events: seq<Event>, launch: int)
  {
    && |Cell(events, launch, true, false)| > 0
    && |Cell(events, launch, true, true)| > 0
    && |Cell(events, launch, false, false)| > 0
    && |Cell(events, launch, false, true)| > 0
  }

  /** The four cell ESAU figures computed directly from the cells. */
  function CellEsaus(events: seq<Event>, launch: int): CellMeans
    requires AllCellsPresent(events, launch)
  {
    CellMeans(
      ComputeEsau(Cell(events, launch, true, false)),
      ComputeEsau(Cell(events, launch, true, true)),
      ComputeEsau(Cell(events, launch, false, false)),
      ComputeEsau(Cell(events, launch, false, true)))
  }

  /** The estimate read from the grouped table is present exactly when all
      four cells have events, and then it is the estimate over the four
      cells' own ESAU. */
  lemma DidEstimateSpec(events: seq<Event>, launch: int)
    ensures DidEstimate(events, launch).Some? <==> AllCellsPresent(events, launch)
    ensures AllCellsPresent(events, launch) ==>
              DidEstimate(events, launch) == Some(Did(CellEsaus(events, launch)))
  {
    CellMeanIsCellEsau(events, launch, true, false);
    CellMeanIsCellEsau(events, launch, true, true);
    CellMeanIsCellEsau(events, launch, false, false);
    CellMeanIsCellEsau(events, launch, false, true);
  }

  // ---------------------------------------------------------------------------
  // Exchanging exposure
  // ---------------------------------------------------------------------------

  function FlipExposure(e: Event): Event
  {
    e.(exposed := !e.exposed)
  }

  /** Flipping every event's exposure exchanges the treated and control
      cells. */
  lemma FlipCell(events: seq<Event>, launch: int, treated: bool, post: bool)
    ensures Cell(Map(FlipExposure, events), launch, treated, post)
            == Map(FlipExposure, Cell(events, launch, !treated, post))
    ensures |Cell(Map(FlipExposure, events), launch, treated, post)| == |Cell(events, launch, !treated, post)|
  {
    MapFilter(events, FlipExposure, InCell(launch, treated, post), InCell(launch, !treated, post));
  }

  /** Flipping exposure leaves each cell's ESAU with the opposite cell. */
  lemma FlipCellEsau(events: seq<Event>, launch: int, treated: bool, post: bool)
    requires |Cell(events, launch, !treated, post)| > 0
    ensures |Cell(Map(FlipExposure, events), launch, treated, post)| > 0
    ensures ComputeEsau(Cell(Map(FlipExposure, events), launch, treated, post))
            == ComputeEsau(Cell(events, launch, !treated, post))
  {
    FlipCell(events, launch, treated, post);
    ComputeEsauInvariant(Cell(events, launch, !treated, post), FlipExposure);
  }

  /** ... and so exchanges the treated and control means of the grouped
      table, including their absence. */
  lemma FlipCellMean(events: seq<Event>, launch: int, treated: bool, post: bool)
    ensures CellMean(GroupedMetrics(Map(FlipExposure, events), launch), treated, post)
            == CellMean(GroupedMetrics(events, launch), !treated, post)
  {
    FlipCell(events, launch, treated, post);
    CellMeanIsCellEsau(events, launch, !treated, post);
    CellMeanIsCellEsau(Map(FlipExposure, events), launch, treated, post);
    if |Cell(events, launch, !treated, post)| > 0 {
      FlipCellEsau(events, launch, treated, post);
    }
  }

  /** Exchanging the roles of the means negates the estimate, or leaves it
      missing. */
  lemma DidOfMeansSwap(a: Option<real>, b: Option<real>, c: Option<real>, d: Option<real>)
    ensures DidOfMeans(c, d, a, b).Some? == DidOfMeans(a, b, c, d).Some?
    ensures DidOfMeans(a, b, c, d).Some? ==> DidOfMeans(c, d, a, b).value == -DidOfMeans(a, b, c, d).value
  {
    if DidOfMeans(a, b, c, d).Some? {
      DidSwapRoles(CellMeans(a.value, b.value, c.value, d.value), 0.0);
    }
  }

  /** Flipping every event's exposure negates the estimate (and leaves it
      absent when it was). */
  lemma FlipExposureNegatesDid(events: seq<Event>, launch: int)
    ensures DidEstimate(Map(FlipExposure, events), launch).Some? == DidEstimate(events, launch).Some?
    ensures DidEstimate(events, launch).Some? ==>
              DidEstimate(Map(FlipExposure, events), launch).value == -DidEstimate(events, launch).value
  {
    var rows := GroupedMetrics(events, launch);
    var a, b := CellMean(rows, true, false), CellMean(rows, true, true);
    var c, d := CellMean(rows, false, false), CellMean(rows, false, true);
    assert DidEstimate(events, launch) == DidOfMeans(a, b, c, d);
    FlipCellMean(events, launch, true, false);
    FlipCellMean(events, launch, true, true);
    FlipCellMean(events, launch, false, false);
    FlipCellMean(events, launch, false, true);
    assert DidEstimate(Map(FlipExposure, events), launch) == DidOfMeans(c, d, a, b);
    DidOfMeansSwap(a, b, c, d);
  }

  // ---------------------------------------------------------------------------
  // The exported percentage
  // ---------------------------------------------------------------------------

  /** `did_pct`: the estimate in percent of the pre-launch treated mean, or
      0 when that mean is missing or not positive (a NaN mean fails the
      comparison). A missing estimate over a positive base stays missing. */
  function DidPct(did: Option<real>, preTreated: Option<real>): (r: Option<real>)
    ensures !(preTreated.Some? && preTreated.value > 0.0) ==> r == Some(0.0)
    ensures preTreated.Some? && preTreated.value > 0.0 ==>
              && (r.Some? <==> did.Some?)
              && (r.Some? ==> r.value * preTreated.value == did.value * 100.0)
              && (r.Some? ==> (r.value < 0.0 <==> did.value < 0.0))
  {
    match preTreated
    case Some(p) =>
      if p > 0.0 then
        match did
        case Some(d) =>
          RatioFacts(d, p);
          RatioFacts(-d, p);
          assert d / p * 100.0 * p == d / p * p * 100.0;
          Some(d / p * 100.0)
        case None => None
      else Some(0.0)
    case None => Some(0.0)
  }

  /** When every cell has events the pre-launch treated mean is at least 1,
      so the guard never fires and the percentage is that of the estimate. */
  lemma DidPctOfLog(events: seq<Event>, launch: int)
    requires AllCellsPresent(events, launch)
    ensures var pre := CellMean(GroupedMetrics(events, launch), true, false);
            var did := DidEstimate(events, launch);
            && pre.Some? && pre.value >= 1.0 && did.Some?
            && DidPct(did, pre).Some?
            && (DidPct(did, pre).value < 0.0 <==> did.value < 0.0)
  {
    var pre := CellMean(GroupedMetrics(events, launch), true, false);
    CellMeanIsCellEsau(events, launch, true, false);
    assert pre == Some(ComputeEsau(Cell(events, launch, true, false)));
    var did := DidEstimate(events, launch);
    assert did.Some? by {
      DidEstimateSpec(events, launch);
    }
  }
}

=== FILE: engagement.dfy ===
/** The engagement metrics of the feature-impact analysis: the split of the
    event log at the feature launch, "engaged sessions per active user"
    (ESAU) per day and on average, percentage changes, and the holiday
    comparison with its guards against empty subsets.

    Every event row counts as one session. Timestamps and calendar days are
    integers; the day of an event is its calendar date in the log. */
module Engagement {
  import opened Wrappers
  import opened Seqs

  /** One row of the events table. */
  datatype Event = Event(userId: int, day: int, time: int, exposed: bool)

  function UserId(e: Event): int { e.userId }
  function Day(e: Event): int { e.day }

  // ---------------------------------------------------------------------------
  // The launch split
  // ---------------------------------------------------------------------------

  function IsPreLaunch(launch: int): Event -> bool { (e: Event) => e.time < launch }
  function IsPostLaunch(launch: int): Event -> bool { (e: Event) => e.time >= launch }

  /** Events strictly before the launch instant. */
  function PreLaunch(events: seq<Event>, launch: int): seq<Event>
  {
    Filter(events, IsPreLaunch(launch))
  }

  /** Events at or after the launch instant. */
  function PostLaunch(events: seq<Event>, launch: int): seq<Event>
  {
    Filter(events, IsPostLaunch(launch))
  }

  /** The split is a partition: each event lands in exactly one half, the
      halves are selected by the launch comparison, and their sizes add up to
      the size of the log. */
  lemma LaunchSplitPartition(events: seq<Event>, launch: int)
    ensures forall e :: e in PreLaunch(events, launch) <==> e in events && e.time < launch
    ensures forall e :: e in PostLaunch(events, launch) <==> e in events && e.time >= launch
    ensures |PreLaunch(events, launch)| + |PostLaunch(events, launch)| == |events|
    ensures multiset(PreLaunch(events, launch)) + multiset(PostLaunch(events, launch)) == multiset(events)
  {
    FilterComplement(events, IsPreLaunch(launch), IsPostLaunch(launch));
  }

  /** The `post` column of the difference-in-differences table. */
  function PostFlag(e: Event, launch: int): int
  {
    if e.time >= launch then 1 else 0
  }

  /** The `post` flag agrees with the launch split on every event. */
  lemma PostFlagMatchesSplit(events: seq<Event>, launch: int)
    ensures forall e :: e in events ==>
              && (PostFlag(e, launch) == 1 <==> e in PostLaunch(events, launch))
              && (PostFlag(e, launch) == 0 <==> e in PreLaunch(events, launch))
  {
  }

  // ---------------------------------------------------------------------------
  // Grouping and ESAU
  // ---------------------------------------------------------------------------

  /** `nunique` of the user ids. */
  function ActiveUsers(sub: seq<Event>): (n: nat)
    ensures n == |set e | e in sub :: e.userId|
    ensures n <= |sub|
    ensures |sub| > 0 ==> n >= 1
  {
    var ids := Map(UserId, sub);
    DistinctCard(ids);
    assert (set x | x in ids) == (set e | e in sub :: e.userId) by {
      forall x | x in ids
        ensures x in (set e | e in sub :: e.userId)
      {
        MapMember(UserId, sub, x);
      }
      forall e | e in sub
        ensures e.userId in ids
      {
        var i :| 0 <= i < |sub| && sub[i] == e;
        assert ids[i] == e.userId;
      }
    }
    assert |sub| > 0 ==> ids[0] in Distinct(ids);
    |Distinct(ids)|
  }

  /** Sessions (rows) divided by distinct users. Every user in a non-empty
      subset has at least one session, so the ratio is at least 1. */
  function SessionsPerUser(sub: seq<Event>): (r: real)
    requires |sub| > 0
    ensures 1.0 <= r <= |sub| as real
  {
    var n, u := |sub| as real, ActiveUsers(sub) as real;
    RatioBounds(n, u);
    n / u
  }

  lemma RatioBounds(n: real, u: real)
    requires 1.0 <= u <= n
    ensures 1.0 <= n / u <= n
  {
    var q := n / u;
    assert q * u == n;
    MulStrict(q, 1.0, u);
    MulStrict(n, q, u);
  }

  /** One group of a `groupby`: its key, its row count, its distinct users
      and their ratio. */
  datatype Group<K> = Group(key: K, sessions: nat, activeUsers: nat, esau: real)

  function KeyIs<K(==)>(keyOf: Event -> K, k: K): Event -> bool
  {
    e => keyOf(e) == k
  }

  /** The rows of one group. */
  function Members<K(==)>(events: seq<Event>, keyOf: Event -> K, k: K): seq<Event>
  {
    Filter(events, KeyIs(keyOf, k))
  }

  lemma MembersNonEmpty<K(!new)>(events: seq<Event>, keyOf: Event -> K, k: K)
    requires k in Map(keyOf, events)
    ensures |Members(events, keyOf, k)| > 0
  {
    MapMember(keyOf, events, k);
    var e :| e in events && keyOf(e) == k;
    assert e in Members(events, keyOf, k);
  }

  /** The group of one key present in the log: its rows, their distinct
      users, and the ratio, which is at least 1. */
  function GroupOf<K(==,!new)>(events: seq<Event>, keyOf: Event -> K, k: K): (g: Group<K>)
    requires k in Map(keyOf, events)
    ensures g.key == k
    ensures g.sessions == |Members(events, keyOf, k)| > 0
    ensures g.activeUsers == |set e | e in Members(events, keyOf, k) :: e.userId|
    ensures 1 <= g.activeUsers <= g.sessions
    ensures g.esau == (g.sessions as real) / (g.activeUsers as real)
    ensures 1.0 <= g.esau <= g.sessions as real
  {
    MembersNonEmpty(events, keyOf, k);
    var m := Members(events, keyOf, k);
    Group(k, |m|, ActiveUsers(m), SessionsPerUser(m))
  }

  /** The groups for the keys `ks`, in that order. */
  function GroupsFor<K(==,!new)>(events: seq<Event>, keyOf: Event -> K, ks: seq<K>): (r: seq<Group<K>>)
    requires forall k :: k in ks ==> k in Map(keyOf, events)
    ensures |r| == |ks| && forall i :: 0 <= i < |ks| ==> r[i] == GroupOf(events, keyOf, ks[i])
  {
    seq(|ks|, i requires 0 <= i < |ks| => GroupOf(events, keyOf, ks[i]))
  }

  function KeysOf<K>(gs: seq<Group<K>>): (r: seq<K>)
    ensures |r| == |gs| && forall i :: 0 <= i < |gs| ==> r[i] == gs[i].key
  {
    seq(|gs|, i requires 0 <= i < |gs| => gs[i].key)
  }

  /** `groupby(key).agg(count, nunique)` with the ratio column: exactly one
      group per key present, each the group of its key. */
  function GroupBy<K(==,!new)>(events: seq<Event>, keyOf: Event -> K): (r: seq<Group<K>>)
    ensures forall k :: k in KeysOf(r) <==> k in Map(keyOf, events)
    ensures NoDup(KeysOf(r))
    ensures forall i :: 0 <= i < |r| ==> r[i].key in Map(keyOf, events) && r[i] == GroupOf(events, keyOf, r[i].key)
    ensures |events| > 0 ==> |r| > 0
  {
    var ks := Distinct(Map(keyOf, events));
    assert |events| > 0 ==> Map(keyOf, events)[0] in ks;
    var r := GroupsFor(events, keyOf, ks);
    assert KeysOf(r) == ks;
    r
  }

  /** The ratio column of a table of groups. */
  function Esaus<K>(gs: seq<Group<K>>): (r: seq<real>)
    ensures |r| == |gs| && forall i :: 0 <= i < |gs| ==> r[i] == gs[i].esau
  {
    seq(|gs|, i requires 0 <= i < |gs| => gs[i].esau)
  }

  /** `daily_esau`: per calendar day present, rows that day over distinct
      users that day. */
  function DailyEsau(events: seq<Event>): seq<Group<int>>
  {
    GroupBy(events, Day)
  }

  /** `compute_esau`: the mean of the daily ratios over the days present,
      hence between 1 and the number of rows. */
  function ComputeEsau(events: seq<Event>): (r: real)
    requires |events| > 0
    ensures 1.0 <= r <= |events| as real
  {
    var daily := DailyEsau(events);
    var xs := Esaus(daily);
    assert forall i :: 0 <= i < |xs| ==> 1.0 <= xs[i] <= |events| as real;
    MeanBetween(xs, 1.0, |events| as real);
    Mean(xs)
  }

  /** Every day with events has exactly one row in the daily table, no other
      day has one, and every row's ratio is that day's rows over that day's
      distinct users, hence at least 1. */
  lemma DailyEsauSpec(events: seq<Event>)
    ensures var daily := DailyEsau(events);
            && (forall e :: e in events ==> e.day in KeysOf(daily))
            && (forall d :: d in KeysOf(daily) ==> exists e :: e in events && e.day == d)
            && NoDup(KeysOf(daily))
            && (forall i :: 0 <= i < |daily| ==>
                  && daily[i].sessions == |Filter(events, KeyIs(Day, daily[i].key))|
                  && daily[i].activeUsers == |set e | e in events && e.day == daily[i].key :: e.userId| >= 1
                  && daily[i].esau == (daily[i].sessions as real) / (daily[i].activeUsers as real)
                  && daily[i].esau >= 1.0)
  {
    var daily := DailyEsau(events);
    forall e | e in events
      ensures e.day in KeysOf(daily)
    {
      var i :| 0 <= i < |events| && events[i] == e;
      assert Map(Day, events)[i] == e.day;
    }
    forall d | d in KeysOf(daily)
      ensures exists e :: e in events && e.day == d
    {
      MapMember(Day, events, d);
    }
    forall i | 0 <= i < |daily|
      ensures (set e | e in Members(events, Day, daily[i].key) :: e.userId)
              == (set e | e in events && e.day == daily[i].key :: e.userId)
    {
    }
  }

  /** Any relabelling of events that keeps user and key leaves each group
      unchanged. */
  lemma GroupOfInvariant<K(!new)>(events: seq<Event>, f: Event -> Event, keyOf: Event -> K, k: K)
    requires forall e :: keyOf(f(e)) == keyOf(e) && f(e).userId == e.userId
    requires k in Map(keyOf, events)
    ensures Map(keyOf, Map(f, events)) == Map(keyOf, events)
    ensures GroupOf(Map(f, events), keyOf, k) == GroupOf(events, keyOf, k)
  {
    MapThrough(events, keyOf, keyOf, f);
    MapFilter(events, f, KeyIs(keyOf, k), KeyIs(keyOf, k));
    var m := Members(events, keyOf, k);
    assert Members(Map(f, events), keyOf, k) == Map(f, m);
    MapThrough(m, UserId, UserId, f);
  }

  /** ... and so leaves the whole grouping unchanged. */
  lemma GroupByInvariant<K(!new)>(events: seq<Event>, f: Event -> Event, keyOf: Event -> K)
    requires forall e :: keyOf(f(e)) == keyOf(e) && f(e).userId == e.userId
    ensures GroupBy(Map(f, events), keyOf) == GroupBy(events, keyOf)
  {
    MapThrough(events, keyOf, keyOf, f);
    var ks := Distinct(Map(keyOf, events));
    forall i | 0 <= i < |ks|
      ensures GroupOf(Map(f, events), keyOf, ks[i]) == GroupOf(events, keyOf, ks[i])
    {
      GroupOfInvariant(events, f, keyOf, ks[i]);
    }
  }

  /** Relabelling events in any way that keeps each event's day and user
      leaves ESAU unchanged (rows count with multiplicity). */
  lemma ComputeEsauInvariant(events: seq<Event>, f: Event -> Event)
    requires |events| > 0
    requires forall e :: f(e).day == e.day && f(e).userId == e.userId
    ensures ComputeEsau(Map(f, events)) == ComputeEsau(events)
  {
    GroupByInvariant(events, f, Day);
  }

  // ---------------------------------------------------------------------------
  // Percentage changes
  // ---------------------------------------------------------------------------

  /** `(after - before) / before * 100`: negative exactly for a decrease when
      the base is positive, and it recovers `after` from `before`. */
  function PctChange(before: real, after: real): (r: real)
    requires before != 0.0
    ensures before > 0.0 ==> (r < 0.0 <==> after < before) && (r == 0.0 <==> after == before)
    ensures after == before * (1.0 + r / 100.0)
  {
    var q := (after - before) / before;
    assert before > 0.0 ==> (q < 0.0 <==> after - before < 0.0);
    q * 100.0
  }

  /** The pre/post ESAU change (reported as the engagement drop); negative
      exactly when post-launch ESAU is below pre-launch ESAU. */
  function EsauDropPct(events: seq<Event>, launch: int): (r: real)
    requires |PreLaunch(events, launch)| > 0 && |PostLaunch(events, launch)| > 0
    ensures r < 0.0 <==> ComputeEsau(PostLaunch(events, launch)) < ComputeEsau(PreLaunch(events, launch))
  {
    PctChange(ComputeEsau(PreLaunch(events, launch)), ComputeEsau(PostLaunch(events, launch)))
  }

  function IsExposed(exposed: bool): Event -> bool { (e: Event) => e.exposed == exposed }

  /** Exposed-versus-unexposed ESAU difference in percent of the unexposed
      ESAU; positive exactly when exposed users are more engaged. */
  function ExposureGapPct(events: seq<Event>): (r: real)
    requires |Filter(events, IsExposed(true))| > 0 && |Filter(events, IsExposed(false))| > 0
    ensures r > 0.0 <==> ComputeEsau(Filter(events, IsExposed(true))) > ComputeEsau(Filter(events, IsExposed(false)))
  {
    PctChange(ComputeEsau(Filter(events, IsExposed(false))), ComputeEsau(Filter(events, IsExposed(true))))
  }

  // ---------------------------------------------------------------------------
  // Holiday comparison
  // ---------------------------------------------------------------------------

  /** The calendar-effects table: for each listed day, whether it is a
      holiday. After the left join, events on unlisted days carry no flag. */
  type Calendar = map<int, bool>

  function IsHoliday(cal: Calendar): Event -> bool { (e: Event) => e.day in cal && cal[e.day] }
  function IsNonHoliday(cal: Calendar): Event -> bool { (e: Event) => e.day in cal && !cal[e.day] }
  function IsUnlisted(cal: Calendar): Event -> bool { (e: Event) => e.day !in cal }

  function HolidayEvents(events: seq<Event>, cal: Calendar): seq<Event>
  {
    Filter(events, IsHoliday(cal))
  }

  function NonHolidayEvents(events: seq<Event>, cal: Calendar): seq<Event>
  {
    Filter(events, IsNonHoliday(cal))
  }

  /** Holiday and non-holiday events are disjoint, and together with the
      events on days the calendar does not list they account for every
      event; so when the calendar lists every day the two cover the log. */
  lemma CalendarSplit(events: seq<Event>, cal: Calendar)
    ensures forall e :: !(e in HolidayEvents(events, cal) && e in NonHolidayEvents(events, cal))
    ensures |HolidayEvents(events, cal)| + |NonHolidayEvents(events, cal)| + |Filter(events, IsUnlisted(cal))| == |events|
  {
    var listed: Event -> bool := (e: Event) => e.day in cal;
    var notHoliday: Event -> bool := (e: Event) => !(e.day in cal && cal[e.day]);
    FilterComplement(events, listed, IsUnlisted(cal));
    FilterComplement(Filter(events, listed), IsHoliday(cal), notHoliday);
    FilterFilter(events, listed, IsHoliday(cal), IsHoliday(cal));
    FilterFilter(events, listed, notHoliday, IsNonHoliday(cal));
  }

  /** When the calendar lists every day of the log, holiday and non-holiday
      events together are the whole log. */
  lemma CalendarCovers(events: seq<Event>, cal: Calendar)
    requires forall e :: e in events ==> e.day in cal
    ensures |HolidayEvents(events, cal)| + |NonHolidayEvents(events, cal)| == |events|
  {
    CalendarSplit(events, cal);
    var u := Filter(events, IsUnlisted(cal));
    HeadIn(u);
  }

  /** Holiday ESAU, or 0 when there are no holiday events; it is 0 exactly
      in that case, and at least 1 otherwise. */
  function HolidayEsau(events: seq<Event>, cal: Calendar): (r: real)
    ensures r == 0.0 <==> |HolidayEvents(events, cal)| == 0
    ensures |HolidayEvents(events, cal)| > 0 ==> r >= 1.0
  {
    var h := HolidayEvents(events, cal);
    if |h| > 0 then ComputeEsau(h) else 0.0
  }

  /** `compute_esau` as the script sees it: NaN (None) for an empty frame,
      otherwise the mean daily ESAU. */
  function EsauOrNaN(events: seq<Event>): (r: Option<real>)
    ensures r.None? <==> |events| == 0
    ensures r.Some? ==> 1.0 <= r.value <= |events| as real
  {
    if |events| == 0 then None else Some(ComputeEsau(events))
  }

  /** The script's `> 0` test on a figure that may be NaN; NaN compares
      false. */
  predicate Positive(x: Option<real>)
  {
    x.Some? && x.value > 0.0
  }

  /** Non-holiday ESAU, falling back to the pre-launch figure (possibly
      NaN) when there are no non-holiday events. */
  function NonHolidayEsau(events: seq<Event>, cal: Calendar, esauPre: Option<real>): (r: Option<real>)
    ensures |NonHolidayEvents(events, cal)| == 0 ==> r == esauPre
    ensures |NonHolidayEvents(events, cal)| > 0 ==> r.Some? && r.value >= 1.0
  {
    var n := NonHolidayEvents(events, cal);
    if |n| > 0 then Some(ComputeEsau(n)) else esauPre
  }

  /** How far holiday ESAU falls short of non-holiday ESAU, in percent of the
      latter; 0 when the non-holiday figure is NaN or not positive. */
  function HolidayImpact(nonHoliday: Option<real>, holiday: real): (r: real)
    ensures !Positive(nonHoliday) ==> r == 0.0
    ensures Positive(nonHoliday) ==> (r > 0.0 <==> holiday < nonHoliday.value)
                                     && (r == 0.0 <==> holiday == nonHoliday.value)
    ensures Positive(nonHoliday) ==> holiday == nonHoliday.value * (1.0 - r / 100.0)
    ensures Positive(nonHoliday) && holiday >= 0.0 ==> r <= 100.0
    ensures Positive(nonHoliday) && holiday == 0.0 ==> r == 100.0
  {
    if Positive(nonHoliday) then
      var n := nonHoliday.value;
      RatioFacts(n - holiday, n);
      (n - holiday) / n * 100.0
    else 0.0
  }

  /** Sign, zero and scale facts about `a / b` for a positive divisor. */
  lemma RatioFacts(a: real, b: real)
    requires b > 0.0
    ensures a / b > 0.0 <==> a > 0.0
    ensures a / b == 0.0 <==> a == 0.0
    ensures a <= b ==> a / b <= 1.0
    ensures a == b ==> a / b == 1.0
    ensures a / b * b == a
  {
    var q := a / b;
    assert q * b == a;
    MulStrict(q, 0.0, b);
    MulStrict(0.0, q, b);
    MulStrict(1.0, q, b);
    MulStrict(q, 1.0, b);
  }

  /** Over a log with non-holiday events the guard never fires: the holiday
      impact is 0 only when the two ESAU figures agree, and a log without
      holiday events shows a full 100% shortfall. */
  lemma HolidayImpactOfLog(events: seq<Event>, cal: Calendar, esauPre: Option<real>)
    requires |NonHolidayEvents(events, cal)| > 0
    ensures var nh := NonHolidayEsau(events, cal, esauPre);
            var h := HolidayEsau(events, cal);
            && nh.Some?
            && (HolidayImpact(nh, h) == 0.0 <==> h == nh.value)
            && (|HolidayEvents(events, cal)| == 0 ==> HolidayImpact(nh, h) == 100.0)
  {
  }

  /** With the pre-launch ESAU of the same log as the fallback, the guard
      fires exactly when there are neither non-holiday nor pre-launch
      events: the fallback is then NaN and the impact is reported as 0. */
  lemma HolidayGuardOfLog(events: seq<Event>, cal: Calendar, launch: int)
    ensures var nh := NonHolidayEsau(events, cal, EsauOrNaN(PreLaunch(events, launch)));
            && (!Positive(nh) <==> |NonHolidayEvents(events, cal)| == 0 && |PreLaunch(events, launch)| == 0)
            && (!Positive(nh) ==> nh.None? && HolidayImpact(nh, HolidayEsau(events, cal)) == 0.0)
  {
  }
}

=== FILE: seqs.dfy ===
/** Sequence utilities shared by the allocation and the engagement models:
    sums and means of reals, filtering, mapping and de-duplication, with the
    facts about them that the models rely on. */
module Seqs {

  /** Sum of a sequence of reals (pandas/numpy `.sum()`, exact). */
  function Sum(xs: seq<real>): real
  {
    if |xs| == 0 then 0.0 else xs[0] + Sum(xs[1..])
  }

  /** Arithmetic mean (pandas `.mean()`), defined for non-empty input only. */
  function Mean(xs: seq<real>): real
    requires |xs| > 0
  {
    Sum(xs) / (|xs| as real)
  }

  /** Multiplying by a positive factor preserves a strict order. */
  lemma MulStrict(a: real, b: real, c: real)
    ensures c > 0.0 && a < b ==> a * c < b * c
  {
  }

  /** Sums of short literal sequences, used to evaluate concrete tables. */
  lemma SumTwo(a: real, b: real)
    ensures Sum([a, b]) == a + b
  {
    assert [a, b][1..] == [b];
    assert [b][1..] == [];
    assert Sum([b]) == b + Sum([]);
  }

  lemma SumThree(a: real, b: real, c: real)
    ensures Sum([a, b, c]) == a + b + c
  {
    assert [a, b, c][1..] == [b, c];
    SumTwo(b, c);
  }

  lemma SumFive(a: real, b: real, c: real, d: real, e: real)
    ensures Sum([a, b, c, d, e]) == a + b + c + d + e
  {
    assert [a, b, c, d, e][1..] == [b, c, d, e];
    assert [b, c, d, e][1..] == [c, d, e];
    SumThree(c, d, e);
  }

  /** Summing is monotone under a pointwise comparison. */
  lemma {:induction false} SumMonotone(a: seq<real>, b: seq<real>)
    requires |a| == |b|
    requires forall i :: 0 <= i < |a| ==> a[i] <= b[i]
    ensures Sum(a) <= Sum(b)
  {
    if |a| > 0 {
      SumMonotone(a[1..], b[1..]);
    }
  }

  /** Summing is linear: if r = a + c * b pointwise then Sum(r) = Sum(a) + c * Sum(b). */
  lemma {:induction false} SumLinear(a: seq<real>, b: seq<real>, c: real, r: seq<real>)
    requires |a| == |b| == |r|
    requires forall i :: 0 <= i < |r| ==> r[i] == a[i] + c * b[i]
    ensures Sum(r) == Sum(a) + c * Sum(b)
  {
    if |r| > 0 {
      SumLinear(a[1..], b[1..], c, r[1..]);
      assert c * (b[0] + Sum(b[1..])) == c * b[0] + c * Sum(b[1..]);
    }
  }

  /** Every base value raised by `k` times its weight. */
  function Proportional(base: seq<real>, weights: seq<real>, k: real): (r: seq<real>)
    requires |base| == |weights|
    ensures |r| == |base|
    ensures forall i :: 0 <= i < |base| ==> r[i] == base[i] + k * weights[i]
  {
    seq(|base|, i requires 0 <= i < |base| => base[i] + k * weights[i])
  }

  /** Raising every value by `k` times its weight raises the total by `k`
      times the total weight. */
  lemma SumProportional(base: seq<real>, weights: seq<real>, k: real)
    requires |base| == |weights|
    ensures Sum(Proportional(base, weights, k)) == Sum(base) + k * Sum(weights)
  {
    SumLinear(base, weights, k, Proportional(base, weights, k));
  }

  /** Shares `amount` out over the base values in proportion to their
      weights; with zero total weight nothing changes. */
  function Spread(base: seq<real>, weights: seq<real>, amount: real): (r: seq<real>)
    requires |base| == |weights|
    ensures |r| == |base|
    ensures Sum(weights) == 0.0 ==> r == base
    ensures forall i :: 0 <= i < |base| && weights[i] == 0.0 ==> r[i] == base[i]
  {
    if Sum(weights) == 0.0 then base
    else Proportional(base, weights, Rate(amount, weights))
  }

  /** The amount per unit of weight. */
  function Rate(amount: real, weights: seq<real>): real
    requires Sum(weights) != 0.0
  {
    amount / Sum(weights)
  }

  /** The rate times the total weight gives back the amount. */
  lemma RateScales(amount: real, weights: seq<real>)
    requires Sum(weights) != 0.0
    ensures Rate(amount, weights) * Sum(weights) == amount
  {
    DivMul(amount, Sum(weights));
  }

  /** With non-zero total weight every value rises by the rate times its
      weight. */
  lemma SpreadIsProportional(base: seq<real>, weights: seq<real>, amount: real)
    requires |base| == |weights|
    requires Sum(weights) != 0.0
    ensures Spread(base, weights, amount) == Proportional(base, weights, Rate(amount, weights))
  {
  }

  /** With non-zero total weight, each value gains the rate times its
      weight. */
  lemma SpreadAt(base: seq<real>, weights: seq<real>, amount: real, i: nat)
    requires |base| == |weights| && i < |base|
    requires Sum(weights) != 0.0
    ensures Spread(base, weights, amount)[i] == base[i] + Rate(amount, weights) * weights[i]
  {
    SpreadIsProportional(base, weights, amount);
  }

  /** With non-zero total weight, the spread values add up to the base
      total plus `amount`. */
  lemma SpreadConserves(base: seq<real>, weights: seq<real>, amount: real)
    requires |base| == |weights|
    requires Sum(weights) != 0.0
    ensures Sum(Spread(base, weights, amount)) == Sum(base) + amount
  {
    var k := Rate(amount, weights);
    calc {
      Sum(Spread(base, weights, amount));
      == { SpreadIsProportional(base, weights, amount); }
      Sum(Proportional(base, weights, k));
      == { SumProportional(base, weights, k); }
      Sum(base) + k * Sum(weights);
      == { RateScales(amount, weights); }
      Sum(base) + amount;
    }
  }

  lemma DivMul(a: real, b: real)
    requires b != 0.0
    ensures a / b * b == a
  {
  }

  /** The first element of a non-empty sequence is one of its elements. */
  lemma HeadIn<T>(s: seq<T>)
    ensures |s| > 0 ==> s[0] in s
  {
  }

  /** Pointwise-equal sequences have equal sums even when they are built differently. */
  lemma SumPointwise(a: seq<real>, b: seq<real>)
    requires |a| == |b|
    requires forall i :: 0 <= i < |a| ==> a[i] == b[i]
    ensures Sum(a) == Sum(b)
  {
    assert a == b;
  }

  /** A sum of n terms each at least c is at least n * c. */
  lemma {:induction false} SumAtLeast(xs: seq<real>, c: real)
    requires forall i :: 0 <= i < |xs| ==> xs[i] >= c
    ensures Sum(xs) >= (|xs| as real) * c
  {
    if |xs| > 0 {
      SumAtLeast(xs[1..], c);
    }
  }

  /** A sum of n terms each at most c is at most n * c. */
  lemma {:induction false} SumAtMost(xs: seq<real>, c: real)
    requires forall i :: 0 <= i < |xs| ==> xs[i] <= c
    ensures Sum(xs) <= (|xs| as real) * c
  {
    if |xs| > 0 {
      SumAtMost(xs[1..], c);
    }
  }

  /** A sum of non-negative terms is zero only if every term is zero. */
  lemma {:induction false} SumZeroOfNonNegative(xs: seq<real>)
    requires forall i :: 0 <= i < |xs| ==> xs[i] >= 0.0
    requires Sum(xs) == 0.0
    ensures forall i :: 0 <= i < |xs| ==> xs[i] == 0.0
  {
    if |xs| > 0 {
      SumAtLeast(xs[1..], 0.0);
      SumZeroOfNonNegative(xs[1..]);
      forall i | 0 < i < |xs|
        ensures xs[i] == 0.0
      {
        assert xs[i] == xs[1..][i - 1];
      }
    }
  }

  /** The mean of values that all lie in [lo, hi] lies in [lo, hi]. */
  lemma MeanBetween(xs: seq<real>, lo: real, hi: real)
    requires |xs| > 0
    requires forall i :: 0 <= i < |xs| ==> lo <= xs[i] <= hi
    ensures lo <= Mean(xs) <= hi
  {
    SumAtLeast(xs, lo);
    SumAtMost(xs, hi);
    var n := |xs| as real;
    assert Sum(xs) / n >= lo by {
      assert Sum(xs) >= n * lo;
    }
    assert Sum(xs) / n <= hi by {
      assert Sum(xs) <= n * hi;
    }
  }

  /** The elements of `s` that satisfy `p`, in their original order
      (a boolean-mask selection `df[mask]`). */
  function Filter<T(!new)>(s: seq<T>, p: T -> bool): (r: seq<T>)
    ensures |r| <= |s|
    ensures forall x :: x in r <==> x in s && p(x)
    ensures multiset(r) <= multiset(s)
  {
    if |s| == 0 then []
    else
      assert s == [s[0]] + s[1..];
      (if p(s[0]) then [s[0]] else []) + Filter(s[1..], p)
  }

  /** Filtering by a predicate and by its negation splits a sequence in two:
      nothing is lost and nothing is counted twice. */
  lemma {:induction false} FilterComplement<T(!new)>(s: seq<T>, p: T -> bool, q: T -> bool)
    requires forall x :: q(x) == !p(x)
    ensures |Filter(s, p)| + |Filter(s, q)| == |s|
    ensures multiset(Filter(s, p)) + multiset(Filter(s, q)) == multiset(s)
  {
    if |s| > 0 {
      FilterComplement(s[1..], p, q);
      assert s == [s[0]] + s[1..];
    }
  }

  /** Filtering twice is filtering once by the conjunction. */
  lemma {:induction false} FilterFilter<T(!new)>(s: seq<T>, p: T -> bool, q: T -> bool, pq: T -> bool)
    requires forall x :: x in s ==> pq(x) == (p(x) && q(x))
    ensures Filter(Filter(s, p), q) == Filter(s, pq)
  {
    if |s| > 0 {
      var t := s[1..];
      FilterFilter(t, p, q, pq);
      assert s[0] in s;
      if p(s[0]) {
        var x := [s[0]] + Filter(t, p);
        assert Filter(s, p) == x;
        assert x[0] == s[0] && x[1..] == Filter(t, p);
        assert Filter(x, q) == (if q(s[0]) then [s[0]] else []) + Filter(Filter(t, p), q);
      } else {
        assert Filter(s, p) == Filter(t, p);
      }
    }
  }

  /** Applies `f` to every element (a derived column). */
  function Map<T, U>(f: T -> U, s: seq<T>): (r: seq<U>)
    ensures |r| == |s|
    ensures forall i :: 0 <= i < |s| ==> r[i] == f(s[i])
  {
    if |s| == 0 then [] else [f(s[0])] + Map(f, s[1..])
  }

  /** Mapping distributes over concatenation. */
  lemma MapAppend<T, U>(f: T -> U, a: seq<T>, b: seq<T>)
    ensures Map(f, a + b) == Map(f, a) + Map(f, b)
  {
  }

  /** Mapping and filtering commute when the filter reads only the mapped value. */
  lemma {:induction false} MapFilter<T(!new), U(!new)>(s: seq<T>, f: T -> U, p: U -> bool, q: T -> bool)
    requires forall x :: x in s ==> q(x) == p(f(x))
    ensures Filter(Map(f, s), p) == Map(f, Filter(s, q))
  {
    if |s| > 0 {
      var t := s[1..];
      MapFilter(t, f, p, q);
      assert s[0] in s;
      var m := Map(f, s);
      assert m[0] == f(s[0]) && m[1..] == Map(f, t);
      assert Filter(m, p) == (if p(f(s[0])) then [f(s[0])] else []) + Filter(Map(f, t), p);
      assert Filter(s, q) == (if q(s[0]) then [s[0]] else []) + Filter(t, q);
      MapAppend(f, if q(s[0]) then [s[0]] else [], Filter(t, q));
    }
  }

  /** Two maps that agree through a common factor produce the same column. */
  lemma MapThrough<T, U, V>(s: seq<T>, f: T -> V, g: U -> V, h: T -> U)
    requires forall x :: x in s ==> f(x) == g(h(x))
    ensures Map(f, s) == Map(g, Map(h, s))
  {
    assert forall i :: 0 <= i < |s| ==> s[i] in s;
  }

  /** Membership in a mapped sequence has a witness in the source. */
  lemma MapMember<T, U>(f: T -> U, s: seq<T>, y: U)
    requires y in Map(f, s)
    ensures exists x :: x in s && f(x) == y
  {
    var i :| 0 <= i < |Map(f, s)| && Map(f, s)[i] == y;
    assert s[i] in s;
  }

  predicate NoDup<T(==)>(s: seq<T>)
  {
    forall i, j :: 0 <= i < j < |s| ==> s[i] != s[j]
  }

  /** The distinct values of `s`, each once (the groups of a pandas
      `groupby`, or the values counted by `nunique`). Each value is kept at
      its last occurrence; nothing here depends on the order. */
  function Distinct<T(==,!new)>(s: seq<T>): (r: seq<T>)
    ensures forall x :: x in r <==> x in s
    ensures NoDup(r)
    ensures |r| <= |s|
  {
    if |s| == 0 then []
    else if s[0] in s[1..] then Distinct(s[1..])
    else [s[0]] + Distinct(s[1..])
  }

  /** `Distinct` counts exactly the number of different values in `s`. */
  lemma {:induction false} DistinctCard<T(!new)>(s: seq<T>)
    ensures |Distinct(s)| == |set x | x in s|
  {
    if |s| == 0 {
      assert (set x | x in s) == {};
    } else {
      DistinctCard(s[1..]);
      assert (set x | x in s) == {s[0]} + (set x | x in s[1..]) by {
        assert s == [s[0]] + s[1..];
      }
    }
  }

  /** De-duplicating then filtering is filtering then de-duplicating. */
  lemma {:induction false} DistinctFilter<T(!new)>(s: seq<T>, p: T -> bool)
    ensures Filter(Distinct(s), p) == Distinct(Filter(s, p))
  {
    if |s| > 0 {
      DistinctFilter(s[1..], p);
      var t := s[1..];
      if p(s[0]) {
        assert Filter(s, p) == [s[0]] + Filter(t, p);
        assert (s[0] in Filter(t, p)) == (s[0] in t);
        if s[0] !in t {
          assert Filter([s[0]] + Distinct(t), p) == [s[0]] + Filter(Distinct(t), p) by {
            assert ([s[0]] + Distinct(t))[1..] == Distinct(t);
          }
        }
      } else {
        assert Filter(s, p) == Filter(t, p);
        if s[0] !in t {
          assert Filter([s[0]] + Distinct(t), p) == Filter(Distinct(t), p) by {
            assert ([s[0]] + Distinct(t))[1..] == Distinct(t);
          }
        }
      }
    }
  }

  /** De-duplication commutes with a map that is injective on the elements. */
  lemma {:induction false} DistinctMap<T(!new), U(!new)>(f: T -> U, s: seq<T>)
    requires forall x, y :: x in s && y in s && f(x) == f(y) ==> x == y
    ensures Distinct(Map(f, s)) == Map(f, Distinct(s))
  {
    if |s| > 0 {
      var t := s[1..];
      DistinctMap(f, t);
      assert Map(f, s) == [f(s[0])] + Map(f, t);
      assert Map(f, s)[1..] == Map(f, t);
      assert (f(s[0]) in Map(f, t)) == (s[0] in t) by {
        if f(s[0]) in Map(f, t) {
          MapMember(f, t, f(s[0]));
        }
      }
      if s[0] !in t {
        assert Map(f, [s[0]] + Distinct(t)) == [f(s[0])] + Map(f, Distinct(t)) by {
          assert ([s[0]] + Distinct(t))[1..] == Distinct(t);
        }
      }
    }
  }
}

=== FILE: wrappers.dfy ===
/** The optional-value type used wherever the modelled scripts can fail
    (a missing dictionary key, a division by zero) or produce pandas' NaN
    (the mean of an empty group). */
module Wrappers {

  datatype Option<+T> = None | Some(value: T)
}
